=== FILE: README.md ===
# Booking admin and widget core in Dafny

This project models the client-side logic of a booking platform's admin application and
booking widget:

- the **price estimator** (`calculateClientPrice`) gives instant feedback while a customer
  picks tickets, add-ons and a coupon: ticket line items, a coupon discount clamped to the
  ticket subtotal, add-on charges, and a final total floored at zero, with the four
  aggregates rounded to cents;
- the **add-on editor store** adds and removes rows, deletes unsaved rows locally, checks
  that names are present and unique after trimming and lower-casing, and splits the edited
  list into the create, update and delete requests a save sends;
- the **ticket-tier store** adds, removes and drag-reorders tiers, strips the client-only
  `temp_id` from the save payload, and skips re-fetching a list already loaded for the same
  service until it is reset;
- the **pricing-rule store** reorders rules and detects unsaved order changes against the id
  order last loaded or saved;
- the **router guard** sends visitors who are not signed in away from protected routes, and
  signed-in users away from the login and sign-up pages. A route is protected when any of
  its matched records sets `requiresAuth`.

Everything is pure functions over immutable datatypes. Loops of the source appear as
methods proved equal to the functional definitions. Backend responses, the clock-derived
temporary ids and the signed-in flag are parameters.

Modules:

- `Wrappers`: `Option`.
- `Records`: positive backend ids.
- `Sequences`: `find`, `filter`, `splice` and the drag "move".
- `JsNumbers`: the JavaScript number semantics the estimator relies on.
- `Text`: `trim` and lower-casing.
- `PriceCalculator`, `AddOnStore`, `TicketTierStore`, `PricingRuleStore`, `Router`: one
  module per source file.

A raw field value (`price`, `quantity`, …) is described by the three views the estimator
takes of it:

- its truthiness, read by `price || base_price`;
- its `ToNumber` value, read by `quantity <= 0`;
- its `parseFloat` result, read by `safeParseFloat`.

A string like `"2abc"` is therefore truthy, compares as `NaN`, and parses to 2. Finite
numbers are exact reals.

## Model

| member | source | states |
|---|---|---|
| JsNumbers.AtMostZero | src/lib/priceCalculator.js:49 | `n <= 0` on a JavaScript number: true for non-positive finite values and `-Infinity`, false for `+Infinity` and `NaN` |
| JsNumbers.SafeParseFloat | src/lib/priceCalculator.js:10-14 | a finite `parseFloat` result is returned unchanged; `NaN`, the infinities and unparseable values give 0 |
| JsNumbers.SafeParseFloatOfNumber | src/lib/priceCalculator.js:10-14 | re-reading a number gives it back; `null` and `undefined` read as 0; coercing twice is coercing once |
| JsNumbers.HalfUpCents | src/lib/priceCalculator.js:124-127 | for a non-negative amount: a non-negative whole number of cents, less than half a cent below it and at most half a cent above it |
| JsNumbers.RoundCents | src/lib/priceCalculator.js:124-127 | `parseFloat(x.toFixed(2))` is within half a cent of `x`; a whole number of cents below 1e21; keeps the sign; leaves whole cents unchanged |
| JsNumbers.HalfUpCentsMonotone | src/lib/priceCalculator.js:124-127 | half-up rounding keeps the order of non-negative amounts and never rounds an amount below 1e21 past it |
| JsNumbers.RoundCentsMonotone | src/lib/priceCalculator.js:124-127 | rounding never reverses the order of two non-negative amounts |
| JsNumbers.RoundCentsIdempotent | src/lib/priceCalculator.js:124-127 | rounding an already rounded aggregate changes nothing |
| JsNumbers.RoundCentsOfThird | src/lib/priceCalculator.js:127 | 100/3 comes out as exactly 33.33 |
| PriceCalculator.AvailableTiers | src/lib/priceCalculator.js:39 | a present `ticket_tiers` list wins even when empty; otherwise `ticketTiers`; otherwise no tiers |
| PriceCalculator.ResolveTierAsWritten | src/lib/priceCalculator.js:43-45 | the two-step lookup throws exactly when the selection has no `tier_id` and the tier list is non-empty |
| PriceCalculator.MissingTierRefThrows | src/lib/priceCalculator.js:43-45 | a one-tier list and a selection without `tier_id`: the source throws, the corrected resolver skips |
| PriceCalculator.ResolveTier | src/lib/priceCalculator.js:43-45 | a resolved tier is in the list and carries the referenced id (plain or `.value`); no tier exactly when there is no id or no tier carries it |
| PriceCalculator.ResolveTierAgreesWithSource | src/lib/priceCalculator.js:43-45 | the corrected resolver returns what the source returns wherever the source does not throw |
| PriceCalculator.UnitPrice | src/lib/priceCalculator.js:52 | a truthy `price` is read as is, even a string such as `"0.00"` that parses to 0; a falsy one (0, `null`, `undefined`, `""`) falls back to `base_price`; a non-zero numeric price is used unchanged |
| PriceCalculator.TicketLine | src/lib/priceCalculator.js:43-61 | no line exactly when the tier is unresolved or the raw quantity is at most 0; otherwise the tier's name, the raw quantity, the unit price and unit price × parsed quantity |
| PriceCalculator.TicketLines | src/lib/priceCalculator.js:42-63 | never more lines than selections |
| PriceCalculator.SumSubtotals | src/lib/priceCalculator.js:62 | the running `ticketSubtotal`; its additivity is `SumSubtotalsAppend`, and `RemoveSelection`/`AcceptedSelectionAddsOneLine` give each selection's share |
| PriceCalculator.LinesArePriced | src/lib/priceCalculator.js:49-60 | every line has a raw quantity that the source's `<= 0` test does not skip (positive, or unreadable and so `NaN`) and subtotal = unit price × parsed quantity |
| PriceCalculator.UnreadableQuantityKeepsLine | src/lib/priceCalculator.js:49-60 | a selection whose quantity is `undefined` is not skipped: it yields a line with that quantity, the tier's unit price and a subtotal of 0 |
| PriceCalculator.LinesComeFromSelections | src/lib/priceCalculator.js:42-63 | every line is the line of some selection: nothing is invented or merged |
| PriceCalculator.TicketLinesSnoc | src/lib/priceCalculator.js:42-63 | one more selection appends exactly its own line, if any |
| PriceCalculator.TicketLinesAppend | src/lib/priceCalculator.js:42-63 | the lines of concatenated selection lists are the concatenated lines |
| PriceCalculator.SumSubtotalsAppend | src/lib/priceCalculator.js:62 | the running ticket subtotal is additive over concatenated line lists |
| PriceCalculator.TicketLinesSplit | src/lib/priceCalculator.js:42-63 | a selection anywhere in the list contributes its own line at its own place |
| PriceCalculator.RemoveSelection | src/lib/priceCalculator.js:42-63 | dropping one selection drops exactly its line and its subtotal |
| PriceCalculator.SkippedSelectionContributesNothing | src/lib/priceCalculator.js:49 | a selection with an unresolved tier or a quantity at most 0 changes neither the lines nor the subtotal |
| PriceCalculator.AcceptedSelectionAddsOneLine | src/lib/priceCalculator.js:49-62 | an accepted selection adds exactly one line and exactly its subtotal |
| PriceCalculator.FindCoupon | src/lib/priceCalculator.js:71 | a found coupon has exactly the typed code; none is found exactly when no coupon has it |
| PriceCalculator.CouponAmount | src/lib/priceCalculator.js:75-88 | percentage: subtotal × value/100, lowered to a positive cap it exceeds; fixed: the value; any other type: 0 |
| PriceCalculator.CouponDiscounts | src/lib/priceCalculator.js:71-98 | at most one discount, named `Coupon: <code>`, positive and at most the subtotal; none for an unknown code; present exactly when the clamped amount is positive |
| PriceCalculator.DiscountWithinSubtotal | src/lib/priceCalculator.js:90-121 | the summed discount is between 0 and the ticket subtotal, and equals the coupon amount when there is one |
| PriceCalculator.SumDiscounts | src/lib/priceCalculator.js:118-121 | the `reduce` over the discounts; `DiscountWithinSubtotal` bounds it by the subtotal and `TotalDiscountAmount` is the loop proved equal to it |
| PriceCalculator.AddOnCharge | src/lib/priceCalculator.js:104-112 | an unknown or ticket-included add-on charges nothing; any other charges its parsed base price × the parsed quantity |
| PriceCalculator.AddOnsTotal | src/lib/priceCalculator.js:101-113 | the add-on total; additive by `AddOnsTotalAppend`, each selection's share by `AddOnsTotalSplit`, and the loop `ProcessAddOns` proved equal to it |
| PriceCalculator.AddOnsTotalAppend | src/lib/priceCalculator.js:101-113 | the add-on total is additive over concatenated selection lists |
| PriceCalculator.AddOnsTotalSplit | src/lib/priceCalculator.js:101-113 | each add-on selection contributes exactly its own charge, wherever it stands |
| PriceCalculator.AddOnSelectionContribution | src/lib/priceCalculator.js:104-112 | unknown and included add-ons add nothing; any other adds base price × quantity |
| PriceCalculator.IncludedAddOnExample | src/lib/priceCalculator.js:110-112 | an included add-on selected three times adds 0 |
| PriceCalculator.FinalTotal | src/lib/priceCalculator.js:123 | never negative, never below subtotal − discount + add-ons, and either 0 or exactly that |
| PriceCalculator.Calculate | src/lib/priceCalculator.js:23-130 | the functional `calculateClientPrice`; `BreakdownInvariants` states what every estimate satisfies, `UnknownCouponNoDiscount` the no-coupon case, the examples concrete estimates, and `CalculateClientPrice` is the step-by-step method proved equal to it |
| PriceCalculator.TotalBounds | src/lib/priceCalculator.js:123-127 | with a discount within the subtotal: the rounded total is non-negative, within half a cent of the floored total, whole cents below 1e21, and for a non-negative subtotal and add-on total never below the rounded add-on total |
| PriceCalculator.Assemble | src/lib/priceCalculator.js:117-127 | step 4: the discount `reduce`, the floored total and the four `toFixed(2)` roundings; `AssembleInvariants` and `AssembleWithoutDiscount` state what it yields |
| PriceCalculator.AssembleInvariants | src/lib/priceCalculator.js:118-127 | the rounding step keeps the lines and discounts and meets `RoundedWell`: base and adjusted subtotals equal and within half a cent of the ticket subtotal, the add-on total within half a cent of the charges, the total within half a cent of the floored total; for a non-negative subtotal and add-on total, the total is never below the add-on total; below 1e21 all four are whole cents |
| PriceCalculator.AssembleWithoutDiscount | src/lib/priceCalculator.js:118-127 | with no discount the rounding step keeps the lines and gives the rounded max(0, subtotal + add-ons) |
| PriceCalculator.BreakdownInvariants | src/lib/priceCalculator.js:23-130 | every estimate meets `RoundedWell` for its own lines and add-on selections: `base_subtotal` = `adjusted_subtotal`, within half a cent of the summed line subtotals; `add_ons_total` within half a cent of the add-on charges; a non-negative total within half a cent of max(0, subtotal − discount + add-ons) and never below `add_ons_total` when both totals are non-negative; aggregates in whole cents; at most one discount, between 0 and the subtotal |
| PriceCalculator.UnknownCouponNoDiscount | src/lib/priceCalculator.js:68-127 | a code no coupon carries gives no discount and a total of round(max(0, subtotal + add-ons)) |
| PriceCalculator.PercentageCapExample | src/lib/priceCalculator.js:77-90 | 50% capped at 30 on 100 gives a discount of 30 and a total of 70 |
| PriceCalculator.PercentageUncappedExample | src/lib/priceCalculator.js:77-90 | 20% without a cap on 100 gives a discount of 20 and a total of 80 |
| PriceCalculator.FixedClampExample | src/lib/priceCalculator.js:86-123 | a fixed 50 on a subtotal of 10 is clamped to 10 and the total is 0 |
| PriceCalculator.TicketStep | src/lib/priceCalculator.js:43-62 | one pass of the ticket loop extends the lines and subtotal of the selections seen so far |
| PriceCalculator.ProcessTickets | src/lib/priceCalculator.js:40-63 | the ticket loop builds exactly the functional line list and its subtotal |
| PriceCalculator.ApplyCoupon | src/lib/priceCalculator.js:69-98 | the coupon step yields exactly the functional discount list |
| PriceCalculator.ProcessAddOns | src/lib/priceCalculator.js:101-113 | the add-on loop accumulates exactly the functional add-on total |
| PriceCalculator.TotalDiscountAmount | src/lib/priceCalculator.js:118-121 | the `reduce` yields exactly the summed discount |
| PriceCalculator.CalculateClientPrice | src/lib/priceCalculator.js:23-130 | the step-by-step estimator returns exactly the functional breakdown `Calculate`, with tiers resolved by the corrected `ResolveTier` |
| Sequences.Find | src/lib/priceCalculator.js:44 | nothing is found exactly when no element matches; a found element is in the list and matches |
| Sequences.FindIsFirst | src/lib/priceCalculator.js:44 | `find` returns the first match |
| Sequences.Filter | src/stores/addOnStore.js:95-101 | keeps only matching elements of the list, and every matching one |
| Sequences.FilterCounts | src/stores/addOnStore.js:95-101 | nothing occurs in the result more often than in the input, and every matching element exactly as often |
| Sequences.FilterAppend | src/stores/addOnStore.js:95-101 | the order is kept: filtering a concatenation filters each part in turn |
| Sequences.SpliceStart | src/stores/ticketTierStore.js:78-81 | the position `splice` works at: a negative start counts back from the end, and the result is clamped into `[0, length]` |
| Sequences.RemoveAt | src/stores/addOnStore.js:44 | `splice(i, 1)`: an index in range removes that element, keeps the rest in order and the multiset minus it; past the end nothing; a negative index counts from the end |
| Sequences.InsertAt | src/stores/ticketTierStore.js:81 | `splice(i, 0, x)`: one more element, `x` at `i` with the rest around it in order; past the end appends |
| Sequences.Move | src/stores/ticketTierStore.js:78-81 | same length and multiset; the moved element lands at the target; the others keep their relative order |
| Sequences.InsertRemoved | src/stores/ticketTierStore.js:78-81 | putting a removed element back where it was restores the list |
| Sequences.MoveToSelf | src/stores/ticketTierStore.js:75 | moving an element onto its own position changes nothing |
| Sequences.MoveRoundTrip | src/stores/ticketTierStore.js:74-82 | moving back from the target to the origin undoes a move |
| Sequences.MoveChanges | src/stores/pricingRuleStore.js:44-48 | on distinct elements a move between different positions changes the list |
| Sequences.MapMove | src/stores/pricingRuleStore.js:56 | projecting a moved list is moving the projected list |
| Sequences.MapRemoveAt | src/stores/ticketTierStore.js:87 | projection commutes with `splice(i, 1)` |
| Sequences.MapInsertAt | src/stores/ticketTierStore.js:87 | projection commutes with `splice(i, 0, x)` |
| Text.Trim | src/stores/addOnStore.js:71 | never longer than its input |
| Text.TrimStartSpec | src/stores/addOnStore.js:71 | the dropped prefix is all white space and the kept suffix does not start with any |
| Text.TrimEndSpec | src/stores/addOnStore.js:71 | the dropped suffix is all white space and the kept prefix does not end with any |
| Text.TrimIsInnerSlice | src/stores/addOnStore.js:71 | `trim` keeps a slice surrounded by white space that neither starts nor ends with white space |
| Text.TrimEmptyIffBlank | src/stores/addOnStore.js:71 | a name trims to nothing exactly when it is all white space |
| Text.LowerChar | src/stores/addOnStore.js:73 | each upper-case ASCII letter maps to its own lower-case letter (code point + 32); every other character is kept |
| Text.ToLower | src/stores/addOnStore.js:73 | same length, each character lower-cased |
| Text.ToLowerIdempotent | src/stores/addOnStore.js:73 | lower-casing twice is lower-casing once |
| AddOnStore.AddAddOn | src/stores/addOnStore.js:33-41 | one unsaved row appended (empty name, price `0.00`, `per_person`, not included); the others unchanged |
| AddOnStore.RemoveAddOn | src/stores/addOnStore.js:43-45 | an index in range removes that row and keeps the others in order; past the end nothing |
| AddOnStore.RemoveAddedAddOn | src/stores/addOnStore.js:33-45 | removing the row just added restores the list |
| AddOnStore.DeleteAddOn | src/stores/addOnStore.js:47-65 | an unsaved row is removed with no request; a saved one sends a request and is removed only if the server deleted it |
| AddOnStore.NameKey | src/stores/addOnStore.js:73 | `name.trim().toLowerCase()`, the key uniqueness is judged by; `SeenIffDuplicate` and `ErrorsCharacterised` are stated over it |
| AddOnStore.SeenIffDuplicate | src/stores/addOnStore.js:69-76 | a row's key is in the set of keys seen so far exactly when an earlier row shares it |
| AddOnStore.ErrorsCharacterised | src/stores/addOnStore.js:67-79 | `name required` exactly for blank names, `not unique` exactly for non-blank names repeating an earlier key; no errors exactly when the names are valid |
| AddOnStore.Validate | src/stores/addOnStore.js:67-79 | the loop reports exactly those errors, only at row indices, never flags a row with no earlier row of the same key as not unique, and succeeds exactly when the names are valid |
| AddOnStore.FirstOccurrenceNotDuplicate | src/stores/addOnStore.js:67-79 | of the rows sharing a non-blank key, validation accepts the first and flags every later one as not unique |
| AddOnStore.PlanPartition | src/stores/addOnStore.js:92-101 | unsaved rows are created and nothing else; saved rows are updated exactly when they differ from the loaded row; a loaded row is deleted exactly when it has no id or no edited row carries it; unchanged rows are left alone |
| AddOnStore.ToDelete | src/stores/addOnStore.js:93-95 | the loaded rows whose id no edited row carries; characterised by `PlanPartition` |
| AddOnStore.ToCreate | src/stores/addOnStore.js:96 | the edited rows without an id; characterised by `PlanPartition` |
| AddOnStore.ToUpdate | src/stores/addOnStore.js:97-101 | the saved edited rows that differ from the loaded one; characterised by `PlanPartition` |
| AddOnStore.Plan | src/stores/addOnStore.js:92-101 | the three request lists a save sends; `PlanPartition` characterises them row by row and `PlanReproducesCurrent` shows they rebuild the edited list |
| AddOnStore.PlanReproducesCurrent | src/stores/addOnStore.js:92-108 | with unique ids, the kept, updated and created rows are exactly the rows of the edited list (as a set: order and multiplicity are not stated) |
| AddOnStore.SaveAddOns | src/stores/addOnStore.js:81-122 | invalid names send nothing and report failure; otherwise the plan is sent and success is the server's |
| TicketTierStore.BlankTier | src/stores/ticketTierStore.js:53-59 | a new row with a temporary id, no backend id, empty name, price `0.00` and quantities 1 to 10 |
| TicketTierStore.AddTier | src/stores/ticketTierStore.js:50-65 | one blank row appended; the other rows, the service id and the name unchanged |
| TicketTierStore.RemoveTier | src/stores/ticketTierStore.js:68-70 | an index in range removes that row and keeps the others in order; past the end nothing |
| TicketTierStore.RemoveAddedTier | src/stores/ticketTierStore.js:50-70 | removing the row just added restores the state |
| TicketTierStore.ReorderTier | src/stores/ticketTierStore.js:74-82 | equal indices change nothing; otherwise the same rows, the row `splice(oldIndex, 1)` takes out (a negative index counts from the end) at the new index, the others in relative order |
| TicketTierStore.ReorderGuardIsShortcut | src/stores/ticketTierStore.js:75 | the early return gives what moving onto itself would |
| TicketTierStore.ReorderUndo | src/stores/ticketTierStore.js:74-82 | dragging back undoes a drag |
| TicketTierStore.StripTempIdRoundTrip | src/stores/ticketTierStore.js:87 | stripping loses the `temp_id` and nothing else |
| TicketTierStore.StripTempId | src/stores/ticketTierStore.js:87 | editor rows become row payloads and dropdown choices stay choices |
| TicketTierStore.SavePayload | src/stores/ticketTierStore.js:86-88 | one payload entry per row, in order, each the row without its `temp_id` |
| TicketTierStore.SaveAfterReorder | src/stores/ticketTierStore.js:74-88 | the payload after a drag is the dragged payload |
| TicketTierStore.EditorRow | src/stores/ticketTierStore.js:31-37 | a loaded tier becomes a saved row with its id, name, base price and quantity bounds copied, and no temporary id |
| TicketTierStore.DropdownChoice | src/stores/ticketTierStore.js:121-124 | a fetched tier becomes an id/label choice labelled with its name |
| TicketTierStore.Loaded | src/stores/ticketTierStore.js:119-129 | a list yields one entry per tier, in order; anything else yields no tiers |
| TicketTierStore.Initialize | src/stores/ticketTierStore.js:18-47 | the service id is recorded at once; on success the name and the editor rows are taken; on failure both are kept |
| TicketTierStore.UsesCache | src/stores/ticketTierStore.js:110 | the cache test: a non-empty list is loaded and the recorded service id equals the requested one; `FetchTicketTiers` sends no request exactly when it holds |
| TicketTierStore.FetchTicketTiers | src/stores/ticketTierStore.js:109-140 | no request exactly when a non-empty list is loaded for the same service, and then nothing changes; otherwise the id is recorded, a failure keeps the tiers and a response replaces them with choices |
| TicketTierStore.FetchTwiceUsesCache | src/stores/ticketTierStore.js:109-129 | a second fetch after one that delivered tiers sends nothing and changes nothing |
| TicketTierStore.FetchAfterInitializeUsesCache | src/stores/ticketTierStore.js:18-112 | after the editor loaded tiers, the dropdown fetch reuses the editor rows |
| TicketTierStore.FailedFetchKeepsOtherServiceTiers | src/stores/ticketTierStore.js:110-136 | a failed fetch for a new service keeps the old tiers under the new id, so the next fetch serves them from the cache |
| TicketTierStore.Reset | src/stores/ticketTierStore.js:143-147 | no tiers, no service id, empty name |
| TicketTierStore.ResetForcesFetch | src/stores/ticketTierStore.js:109-147 | after a reset the next fetch always sends a request |
| PricingRuleStore.Ids | src/stores/pricingRuleStore.js:16 | the rule ids in list order |
| PricingRuleStore.HasOrderChanged | src/stores/pricingRuleStore.js:14-18 | the unsaved-order flag; `HasOrderChangedIff` shows it is exactly inequality of the current ids and the baseline |
| PricingRuleStore.HasOrderChangedIff | src/stores/pricingRuleStore.js:14-18 | the order has changed exactly when the current ids differ from the baseline |
| PricingRuleStore.Initialize | src/stores/pricingRuleStore.js:20-42 | a successful load takes the rules and leaves no unsaved change; a failure changes nothing |
| PricingRuleStore.ReorderRule | src/stores/pricingRuleStore.js:44-48 | equal indices change nothing; otherwise the same rules, the rule `splice(oldIndex, 1)` takes out (a negative index counts from the end) at the new index, the others in relative order; the baseline kept |
| PricingRuleStore.UpdateRuleOrder | src/stores/pricingRuleStore.js:50-52 | the list is replaced, the baseline kept, and the order counts as changed exactly when the new ids differ from it |
| PricingRuleStore.SaveOrder | src/stores/pricingRuleStore.js:54-76 | success makes the current ids the baseline, so no change is pending; failure changes nothing |
| PricingRuleStore.ReorderMarksChanged | src/stores/pricingRuleStore.js:14-48 | with distinct ids and nothing pending, a real drag marks the order as changed |
| PricingRuleStore.ReorderBackUnchanged | src/stores/pricingRuleStore.js:44-48 | dragging back restores the state and clears the change |
| PricingRuleStore.SaveAfterReorder | src/stores/pricingRuleStore.js:54-65 | after a drag and a successful save the baseline is the dragged id list |
| Router.Routes | src/router/index.js:5-159 | the route table: the top-level records in declaration order, the admin layout the only record with `requiresAuth`; `LoginResolves`, `DashboardResolves`, `ChildResolves` and `RequiresAuthIffUnderAdmin` are about it |
| Router.Resolve | src/router/index.js:5-159 | a matched chain starts at a top-level record, each record is a child of the one before it, and it ends at the record with the requested name; `ResolveComplete` gives the converse, that every name the table carries is found |
| Router.ResolveComplete | src/router/index.js:5-159 | resolution succeeds exactly when some record of the table, at any depth, carries the requested name |
| Router.ChildResolves | src/router/index.js:17-149 | every named child of a top-level record, such as each page under the admin layout, resolves |
| Router.RequiresAuth | src/router/index.js:173 | some matched record sets `requiresAuth`; `RequiresAuthIffUnderAdmin` shows this holds exactly under the admin layout |
| Router.Guard | src/router/index.js:166-182 | to login exactly when the route is protected and nobody is signed in; to the dashboard exactly when a signed-in user asks for login or sign-up; nowhere else |
| Router.ProtectedNeedsSignIn | src/router/index.js:173-176 | a protected route is only entered when signed in |
| Router.SignedInSkipsAuthPages | src/router/index.js:177-178 | a signed-in user never enters the login or sign-up page |
| Router.TopLevelLeaf | src/router/index.js:5-159 | a match whose first record has no children is that record alone |
| Router.RequiresAuthIffUnderAdmin | src/router/index.js:17-21 | a named route needs sign-in exactly when it lies under the admin layout, at any depth |
| Router.LoginResolves | src/router/index.js:13 | the login page matches on its own |
| Router.DashboardUnderAdmin | src/router/index.js:17-27 | the dashboard is matched through the admin layout |
| Router.DashboardResolves | src/router/index.js:5-27 | the dashboard's matched chain is the admin layout and the dashboard |
| Router.LoginAdmitsGuests | src/router/index.js:173-181 | a guest asking for the login page is let through |
| Router.DashboardAdmitsMembers | src/router/index.js:173-181 | a signed-in user asking for the dashboard is let through, although it is protected |
| Router.RedirectSettles | src/router/index.js:166-182 | no redirect loop: every redirect target resolves and is let through for the same user |

## Left out

- HTTP requests, toasts, console logging and the `isLoading` flags. A request's outcome is
  a parameter (`Fetched`, `serverOk`, `serverDeleted`, `succeeded`).
- The clock: temporary ids `new_<timestamp>` are a parameter.
- Concurrency between an awaited request and further edits. For example, `saveOrder` reads
  the ids before its request and applies them after it.
- JsNumbers.RoundCents: finite numbers are exact reals, so binary floating-point effects are
  not modelled. One such effect is `1.005.toFixed(2)` giving `1.00`. For `|x| >= 1e21`,
  `toFixed` returns exponential notation that `parseFloat` reads back; the value is kept
  unchanged there.
- `parseFloat` and `ToNumber` on strings are not computed. A raw value records their results
  directly.
- Text.ToLower: lower-cases ASCII letters only, because `toLowerCase` on the rest of Unicode
  needs the Unicode case tables.
- Text.LowerChar: keeps every non-ASCII character, where `toLowerCase` maps `'É'` to `'é'`,
  for the same reason; two names differing only in the case of such letters count as
  distinct here.
- TicketTierStore.ReorderTier, PricingRuleStore.ReorderRule: require that `splice(oldIndex, 1)`
  removes a row, that is `oldIndex` below the length of a non-empty list. Drag events always
  supply such an index. A larger `oldIndex` removes nothing, and the source then inserts
  `undefined` at `newIndex`, which a list of rows cannot hold. A negative `oldIndex` is
  modelled: it counts from the end, or takes the first row below −length.
- Sequences.Move: takes the position `splice` has already normalised, so it requires one
  inside the list.
- PriceCalculator.Calculate: resolves tiers with the corrected `ResolveTier`, so on a
  selection without `tier_id` and a non-empty tier list it returns a breakdown where the
  source throws a `TypeError` (see Findings; `ResolveTierAsWritten` models the throw). The
  same holds for `TicketLine`, `TicketLines` and `CalculateClientPrice`. Ids are modelled as
  one numeric type: the source's `===` across types, where a string `tier_id` `"3"` finds no
  tier with numeric id 3 and the selection is skipped, is not expressible.
- The JSON-text comparison of `saveAddOns` and `hasOrderChanged` is modelled as equality of
  the rows or id lists. Key order is not modelled.
- `service.addons` and `service.coupons` are lists in the model; their absence reads as the
  empty list in the source (`|| []`, `?.`). `intentData.tickets` and `intentData.addOns` are
  assumed to be arrays.
- The estimator is pure, so calling it twice gives the same breakdown. No lemma states this.
- BOGO coupons get no client-side discount, as in the source; their backend logic is not
  part of this model.
- The add-on store's `initialize`, which copies the loaded rows with `price` aligned to
  `base_price`, is the `initial` parameter of the save.
- Pricing-rule loading assumes the response data is a list. A `null` would throw inside
  `map` after `rules` was already assigned.
- The router matches navigations by route name; path matching and `:param` segments are not
  modelled. Route-level redirects are not modelled either: the catch-all to
  `/admin/dashboard` and the service editor's redirect to its details tab. The guard sees
  the signed-in flag after the pending token login (`attemptLoginFromToken`) has settled.

## Findings

| source | as written | input that shows it | evidently intended | confidence | as-written member | corrected member |
|---|---|---|---|---|---|---|
| src/lib/priceCalculator.js:43-45 | the fallback lookup reads `selection.tier_id.value` even when `tier_id` is `null` or `undefined` | a ticket selection without `tier_id`, with at least one tier available: the `find` callback throws a `TypeError` and the whole estimate fails | skip the selection like any unresolved tier; the estimator is meant to degrade to zero contributions, never to fail | not executed | PriceCalculator.ResolveTierAsWritten, PriceCalculator.MissingTierRefThrows | PriceCalculator.ResolveTier, PriceCalculator.ResolveTierAgreesWithSource |

=== FILE: add_on_store.dfy ===
/** The local logic of the add-on editor store: adding and removing rows, deleting a row
    that was never saved, name validation, and splitting the edited list into the create,
    update and delete requests `saveAddOns` sends. The HTTP calls themselves are not
    modelled; their outcome is a parameter. */
module AddOnStore {
  import opened Wrappers
  import opened Records
  import opened Sequences
  import opened Text

  /** An add-on row being edited. `id` is absent for a row not yet saved; `tempId` is the
      client-side key of such a row; `kind` is the `type` field. */
  datatype AddOnRow = AddOnRow(
    id: Option<Id>,
    tempId: Option<string>,
    name: string,
    price: string,
    kind: string,
    includedInTicket: bool)

  /** The blank row `addAddOn` appends; `tempId` is the clock-derived `new_<timestamp>` key. */
  function BlankAddOn(tempId: string): AddOnRow {
    AddOnRow(None, Some(tempId), "", "0.00", "per_person", false)
  }

  /** `addAddOn`: exactly one blank, unsaved row appended; the existing rows are unchanged. */
  function AddAddOn(rows: seq<AddOnRow>, tempId: string): (r: seq<AddOnRow>)
    ensures |r| == |rows| + 1 && r[..|rows|] == rows
    ensures r[|rows|].id.None? && r[|rows|].name == "" && r[|rows|].price == "0.00"
    ensures r[|rows|].kind == "per_person" && !r[|rows|].includedInTicket
  {
    rows + [BlankAddOn(tempId)]
  }

  /** `removeAddOn(index)`: `splice(index, 1)`. */
  function RemoveAddOn(rows: seq<AddOnRow>, index: int): (r: seq<AddOnRow>)
    ensures 0 <= index < |rows| ==> |r| == |rows| - 1 && r[..index] == rows[..index] && r[index..] == rows[index + 1..]
    ensures index >= |rows| ==> r == rows
  {
    RemoveAt(rows, index)
  }

  /** Removing the row just added restores the list. */
  lemma RemoveAddedAddOn(rows: seq<AddOnRow>, tempId: string)
    ensures RemoveAddOn(AddAddOn(rows, tempId), |rows|) == rows
  {
    var r := AddAddOn(rows, tempId);
    assert RemoveAt(r, |rows|) == r[..|rows|] + r[|rows| + 1..];
  }

  /** What `deleteAddOn` does: an unsaved row is removed locally with no request; a saved one
      is deleted on the server first and removed only if that succeeds. */
  datatype DeleteResult = DeleteResult(rows: seq<AddOnRow>, requestSent: bool)

  function DeleteAddOn(rows: seq<AddOnRow>, addOn: AddOnRow, index: int, serverDeleted: bool): (r: DeleteResult)
    ensures addOn.id.None? ==> !r.requestSent && r.rows == RemoveAddOn(rows, index)
    ensures addOn.id.Some? ==> r.requestSent
    ensures addOn.id.Some? && serverDeleted ==> r.rows == RemoveAddOn(rows, index)
    ensures addOn.id.Some? && !serverDeleted ==> r.rows == rows
  {
    if addOn.id.None? then DeleteResult(RemoveAddOn(rows, index), false)
    else if serverDeleted then DeleteResult(RemoveAddOn(rows, index), true)
    else DeleteResult(rows, true)
  }

  // ---------------------------------------------------------------------------------------
  // Validation
  // ---------------------------------------------------------------------------------------

  datatype NameError = NameRequired | NameNotUnique {
    function Message(): string {
      match this
      case NameRequired => "Name is required."
      case NameNotUnique => "Add-on names must be unique."
    }
  }

  /** The key names are compared by: trimmed and lower-cased. */
  function NameKey(name: string): string {
    ToLower(Trim(name))
  }

  /** Some earlier row has the same key as row `k`. */
  predicate DuplicateBefore(rows: seq<AddOnRow>, k: int)
    requires 0 <= k < |rows|
  {
    exists j :: 0 <= j < k && NameKey(rows[j].name) == NameKey(rows[k].name)
  }

  /** The rows pass validation: every name is non-blank and no two keys coincide. */
  predicate NamesValid(rows: seq<AddOnRow>) {
    forall k :: 0 <= k < |rows| ==>
      Trim(rows[k].name) != [] && forall j :: 0 <= j < k ==> NameKey(rows[j].name) != NameKey(rows[k].name)
  }

  /** The keys of the first `i` rows. */
  function KeysBefore(rows: seq<AddOnRow>, i: int): set<string>
    requires 0 <= i <= |rows|
  {
    set j | 0 <= j < i :: NameKey(rows[j].name)
  }

  /** Row `k`'s key was seen before it exactly when an earlier row shares it. */
  lemma SeenIffDuplicate(rows: seq<AddOnRow>, k: int)
    requires 0 <= k < |rows|
    ensures NameKey(rows[k].name) in KeysBefore(rows, k) <==> DuplicateBefore(rows, k)
  {
    if NameKey(rows[k].name) in KeysBefore(rows, k) {
      var j :| 0 <= j < k && NameKey(rows[j].name) == NameKey(rows[k].name);
    }
  }

  /** The error, if any, validation attaches to row `k`. */
  function ExpectedError(rows: seq<AddOnRow>, k: int): Option<NameError>
    requires 0 <= k < |rows|
  {
    if Trim(rows[k].name) == [] then Some(NameRequired)
    else if DuplicateBefore(rows, k) then Some(NameNotUnique)
    else None
  }

  function ErrorAt(errors: map<nat, NameError>, k: nat): Option<NameError> {
    if k in errors then Some(errors[k]) else None
  }

  /** The per-row characterisation of the errors, spelled out and summed up: none at all
      exactly when the names are valid. */
  lemma ErrorsCharacterised(rows: seq<AddOnRow>, errors: map<nat, NameError>)
    requires forall k :: k in errors ==> k < |rows|
    requires forall k :: 0 <= k < |rows| ==> ErrorAt(errors, k) == ExpectedError(rows, k)
    ensures forall k :: 0 <= k < |rows| ==>
      (k in errors && errors[k] == NameRequired <==> Trim(rows[k].name) == [])
    ensures forall k :: 0 <= k < |rows| ==>
      (k in errors && errors[k] == NameNotUnique <==> Trim(rows[k].name) != [] && DuplicateBefore(rows, k))
    ensures errors == map[] <==> NamesValid(rows)
  {
    forall k | 0 <= k < |rows|
      ensures (k in errors && errors[k] == NameRequired <==> Trim(rows[k].name) == [])
      ensures (k in errors && errors[k] == NameNotUnique <==> Trim(rows[k].name) != [] && DuplicateBefore(rows, k))
    {
      assert ErrorAt(errors, k) == ExpectedError(rows, k);
    }
    if !NamesValid(rows) {
      var k :| 0 <= k < |rows| && !(Trim(rows[k].name) != [] && forall j :: 0 <= j < k ==> NameKey(rows[j].name) != NameKey(rows[k].name));
      assert ErrorAt(errors, k) == ExpectedError(rows, k);
      assert k in errors;
    }
    if errors != map[] {
      var k :| k in errors;
      assert ErrorAt(errors, k) == ExpectedError(rows, k);
      assert !NamesValid(rows) by {
        if Trim(rows[k].name) != [] {
          var j :| 0 <= j < k && NameKey(rows[j].name) == NameKey(rows[k].name);
        }
      }
    }
  }

  /** `validate`: one pass over the rows with the set of keys seen so far. A blank name is
      flagged as required; otherwise a key already seen is flagged as not unique; either way
      the key joins the set. Returns the errors by row index and whether there are none. */
  method Validate(rows: seq<AddOnRow>) returns (errors: map<nat, NameError>, ok: bool)
    ensures forall k :: k in errors ==> k < |rows|
    ensures forall k :: 0 <= k < |rows| ==>
      (k in errors && errors[k] == NameRequired <==> Trim(rows[k].name) == [])
    ensures forall k :: 0 <= k < |rows| ==>
      (k in errors && errors[k] == NameNotUnique <==> Trim(rows[k].name) != [] && DuplicateBefore(rows, k))
    ensures ok <==> errors == map[]
    ensures ok <==> NamesValid(rows)
    ensures forall k :: 0 <= k < |rows| && !DuplicateBefore(rows, k) ==> !(k in errors && errors[k] == NameNotUnique)
  {
    errors := map[];
    var names: set<string> := {};
    for i := 0 to |rows|
      invariant forall k :: k in errors ==> k < i
      invariant forall k :: 0 <= k < i ==> ErrorAt(errors, k) == ExpectedError(rows, k)
      invariant names == KeysBefore(rows, i)
    {
      ghost var before := errors;
      var trimmed := Trim(rows[i].name);
      SeenIffDuplicate(rows, i);
      if trimmed == [] {
        errors := errors[i := NameRequired];
      } else if ToLower(trimmed) in names {
        errors := errors[i := NameNotUnique];
      }
      assert ErrorAt(errors, i) == ExpectedError(rows, i);
      assert forall k :: 0 <= k < i ==> ErrorAt(errors, k) == ErrorAt(before, k);
      names := names + {ToLower(trimmed)};
      assert KeysBefore(rows, i + 1) == KeysBefore(rows, i) + {NameKey(rows[i].name)};
    }
    ok := |errors| == 0;
    assert ok <==> errors == map[] by {
      if !ok { var k :| k in errors; }
    }
    ErrorsCharacterised(rows, errors);
  }

  /** Of the rows sharing a non-blank key, the first is accepted and every later one is
      flagged as not unique. */
  lemma FirstOccurrenceNotDuplicate(rows: seq<AddOnRow>, errors: map<nat, NameError>, k: int)
    requires forall k :: k in errors ==> k < |rows|
    requires forall k :: 0 <= k < |rows| ==> ErrorAt(errors, k) == ExpectedError(rows, k)
    requires 0 <= k < |rows| && Trim(rows[k].name) != []
    requires forall j :: 0 <= j < k ==> NameKey(rows[j].name) != NameKey(rows[k].name)
    ensures k !in errors
    ensures forall m :: k < m < |rows| && NameKey(rows[m].name) == NameKey(rows[k].name) ==>
      m in errors && errors[m] == NameNotUnique
  {
    assert ErrorAt(errors, k) == ExpectedError(rows, k);
    forall m | k < m < |rows| && NameKey(rows[m].name) == NameKey(rows[k].name)
      ensures m in errors && errors[m] == NameNotUnique
    {
      assert |Trim(rows[m].name)| == |NameKey(rows[m].name)| == |NameKey(rows[k].name)| == |Trim(rows[k].name)|;
      assert DuplicateBefore(rows, m);
      assert ErrorAt(errors, m) == ExpectedError(rows, m);
    }
  }

  // ---------------------------------------------------------------------------------------
  // Saving
  // ---------------------------------------------------------------------------------------

  /** The requests a save sends. */
  datatype SavePlan = SavePlan(toDelete: seq<AddOnRow>, toCreate: seq<AddOnRow>, toUpdate: seq<AddOnRow>)

  /** The ids of the saved rows still in the list. */
  function CurrentIds(rows: seq<AddOnRow>): set<Id> {
    set i | 0 <= i < |rows| && rows[i].id.Some? :: rows[i].id.value
  }

  /** The loaded row with the given id. */
  function FindRow(rows: seq<AddOnRow>, id: Id): Option<AddOnRow> {
    Find(rows, (r: AddOnRow) => r.id == Some(id))
  }

  /** `initialAddOns.filter(a => !currentIds.has(a.id))`. */
  function ToDelete(initial: seq<AddOnRow>, current: seq<AddOnRow>): seq<AddOnRow> {
    var ids := CurrentIds(current);
    Filter(initial, (a: AddOnRow) => a.id.None? || a.id.value !in ids)
  }

  /** `addOns.filter(a => !a.id)`. */
  function ToCreate(current: seq<AddOnRow>): seq<AddOnRow> {
    Filter(current, (a: AddOnRow) => a.id.None?)
  }

  /** Saved rows that differ from the loaded row with the same id (or have none). */
  function ToUpdate(current: seq<AddOnRow>, initial: seq<AddOnRow>): seq<AddOnRow> {
    Filter(current, (a: AddOnRow) => a.id.Some? && FindRow(initial, a.id.value) != Some(a))
  }

  function Plan(current: seq<AddOnRow>, initial: seq<AddOnRow>): SavePlan {
    SavePlan(ToDelete(initial, current), ToCreate(current), ToUpdate(current, initial))
  }

  /** How the save partitions the rows: an unsaved row is created and nothing else; a saved
      row is updated exactly when it differs from what was loaded; a loaded row is deleted
      exactly when no current row has its id; and an unchanged saved row takes part in no
      request at all. */
  lemma PlanPartition(current: seq<AddOnRow>, initial: seq<AddOnRow>)
    ensures var p := Plan(current, initial);
      forall i :: 0 <= i < |current| ==>
        && (current[i] in p.toCreate <==> current[i].id.None?)
        && (current[i] in p.toUpdate <==> current[i].id.Some? && FindRow(initial, current[i].id.value) != Some(current[i]))
        && !(current[i] in p.toCreate && current[i] in p.toUpdate)
    ensures var p := Plan(current, initial);
      forall i :: 0 <= i < |initial| ==>
        (initial[i] in p.toDelete <==> initial[i].id.None? || forall k :: 0 <= k < |current| ==> current[k].id != initial[i].id)
    ensures var p := Plan(current, initial);
      forall i :: 0 <= i < |current| && current[i].id.Some? && FindRow(initial, current[i].id.value) == Some(current[i]) ==>
        current[i] !in p.toCreate && current[i] !in p.toUpdate && current[i] !in p.toDelete
  {
    var p := Plan(current, initial);
    var ids := CurrentIds(current);
    forall i | 0 <= i < |initial|
      ensures initial[i] in p.toDelete <==> initial[i].id.None? || forall k :: 0 <= k < |current| ==> current[k].id != initial[i].id
    {
      if initial[i].id.Some? && initial[i].id.value in ids {
        var k :| 0 <= k < |current| && current[k].id.Some? && current[k].id.value == initial[i].id.value;
        assert current[k].id == initial[i].id;
      }
      if initial[i].id.Some? && exists k :: 0 <= k < |current| && current[k].id == initial[i].id {
        var k :| 0 <= k < |current| && current[k].id == initial[i].id;
        assert initial[i].id.value in ids;
      }
      if initial[i] in p.toDelete {
        var a := initial[i];
        assert a.id.None? || a.id.value !in ids;
      }
    }
    forall i | 0 <= i < |current| && current[i].id.Some? && FindRow(initial, current[i].id.value) == Some(current[i])
      ensures current[i] !in p.toDelete
    {
      assert current[i].id.value in ids;
    }
  }

  /** No id is carried by two rows. */
  predicate UniqueIds(rows: seq<AddOnRow>) {
    forall i, j :: 0 <= i < j < |rows| && rows[i].id.Some? ==> rows[i].id != rows[j].id
  }

  /** The loaded rows a save leaves alone on the server: neither deleted nor overwritten by
      an update with the same id. */
  function Kept(initial: seq<AddOnRow>, p: SavePlan): seq<AddOnRow> {
    Filter(initial, (a: AddOnRow) => a !in p.toDelete && forall k :: 0 <= k < |p.toUpdate| ==> p.toUpdate[k].id != a.id)
  }

  /** The plan is complete and exact: after the server applies it, its rows are exactly the
      edited ones (the rows it kept, the updated ones and the created ones), provided ids are
      unique in both lists. */
  lemma PlanReproducesCurrent(current: seq<AddOnRow>, initial: seq<AddOnRow>)
    requires UniqueIds(current) && UniqueIds(initial)
    ensures var p := Plan(current, initial);
      forall x :: x in current <==> x in Kept(initial, p) || x in p.toUpdate || x in p.toCreate
  {
    var p := Plan(current, initial);
    var ids := CurrentIds(current);
    forall x | x in current
      ensures x in Kept(initial, p) || x in p.toUpdate || x in p.toCreate
    {
      var i :| 0 <= i < |current| && current[i] == x;
      if x.id.Some? && FindRow(initial, x.id.value) == Some(x) {
        assert x in initial;
        assert x.id.value in ids;
        assert x !in p.toDelete;
      }
    }
    forall x | x in Kept(initial, p)
      ensures x in current
    {
      assert x in initial && x !in p.toDelete;
      var id := x.id.value;
      assert id in ids;
      var c :| 0 <= c < |current| && current[c].id == Some(id);
      var cur := current[c];
      assert FindRow(initial, id) == Some(cur);
      var found := FindRow(initial, id).value;
      var m :| 0 <= m < |initial| && initial[m] == found;
      var n :| 0 <= n < |initial| && initial[n] == x;
      assert m == n;
    }
  }

  /** The outcome of `saveAddOns`: whether it reports success, and the requests it sent
      (none when validation fails). `serverOk` is whether all requests succeeded. */
  datatype SaveResult = SaveResult(success: bool, requests: Option<SavePlan>)

  function SaveAddOns(current: seq<AddOnRow>, initial: seq<AddOnRow>, serverOk: bool): (r: SaveResult)
    ensures !NamesValid(current) ==> !r.success && r.requests.None?
    ensures NamesValid(current) ==> r.requests == Some(Plan(current, initial)) && (r.success <==> serverOk)
  {
    if !NamesValid(current) then SaveResult(false, None)
    else SaveResult(serverOk, Some(Plan(current, initial)))
  }
}

=== FILE: js_numbers.dfy ===
/** The slice of JavaScript number semantics the price estimator depends on: the three ways a
    raw field value is read (truthiness, `<=` comparison, `parseFloat`), the coerce-or-zero
    helper built on `parseFloat`, and `parseFloat(x.toFixed(2))` rounding. Finite numbers are
    exact reals; binary floating-point error is not modelled. */
module JsNumbers {

  /** A JavaScript number. */
  datatype JsNum = Finite(value: real) | PosInfinity | NegInfinity | NaN

  /** A raw field value (a number, a numeric string, `null`, `undefined`, …) described by the
      three views of it the source takes:
      - `truthy`: its truthiness, used by `a || b`;
      - `asNumber`: `ToNumber` of it, used when it is compared with `<=`;
      - `parsed`: what `parseFloat` returns for it. */
  datatype Raw = Raw(truthy: bool, asNumber: JsNum, parsed: JsNum)

  /** A field holding the number `x` itself. */
  function FromNumber(x: real): (v: Raw)
    ensures v.parsed == Finite(x) && v.asNumber == Finite(x)
    ensures v.truthy <==> x != 0.0
  {
    Raw(x != 0.0, Finite(x), Finite(x))
  }

  /** A missing field (`undefined`): falsy, `NaN` as a number, unparseable. */
  const Undefined: Raw := Raw(false, NaN, NaN)

  /** `null`: falsy, `0` as a number, unparseable. */
  const Null: Raw := Raw(false, Finite(0.0), NaN)

  /** `n <= 0` on a JavaScript number; every comparison with `NaN` is false. */
  predicate AtMostZero(n: JsNum) {
    match n
    case Finite(x) => x <= 0.0
    case NegInfinity => true
    case PosInfinity => false
    case NaN => false
  }

  /** `safeParseFloat`: the `parseFloat` result when it is finite, otherwise 0. */
  function SafeParseFloat(v: Raw): (r: real)
    ensures v.parsed.Finite? ==> r == v.parsed.value
    ensures !v.parsed.Finite? ==> r == 0.0
  {
    match v.parsed
    case Finite(x) => x
    case _ => 0.0
  }

  /** Re-reading a number the source produced itself gives that number back; `null` and
      `undefined` read as 0. */
  lemma SafeParseFloatOfNumber(x: real)
    ensures SafeParseFloat(FromNumber(x)) == x
    ensures SafeParseFloat(Undefined) == 0.0 && SafeParseFloat(Null) == 0.0
    ensures SafeParseFloat(FromNumber(SafeParseFloat(FromNumber(x)))) == SafeParseFloat(FromNumber(x))
  {
  }

  function Abs(x: real): real {
    if x < 0.0 then -x else x
  }

  /** `x` is a whole number of cents. */
  predicate IsCents(x: real) {
    (x * 100.0).Floor as real == x * 100.0
  }

  /** `toFixed(2)` switches to exponential notation from this magnitude on, and
      `parseFloat` then reads the value back unchanged. */
  const FixedLimit: real := 1000000000000000000000.0

  /** Nearest whole number of cents to a non-negative `m`, the larger one on a tie. */
  function HalfUpCents(m: real): (r: real)
    requires m >= 0.0
    ensures r >= 0.0 && IsCents(r)
    ensures m - 0.005 < r <= m + 0.005
  {
    var n := (m * 100.0 + 0.5).Floor;
    assert n as real <= m * 100.0 + 0.5 < n as real + 1.0;
    assert (n as real / 100.0) * 100.0 == n as real;
    n as real / 100.0
  }

  /** Whole cents stay whole cents under negation. */
  lemma NegateCents(x: real)
    requires IsCents(x)
    ensures IsCents(-x)
  {
    var n := (x * 100.0).Floor;
    assert -x * 100.0 == (-n) as real;
  }

  /** Rounding a whole number of cents gives it back. */
  lemma HalfUpCentsOfCents(m: real)
    requires m >= 0.0 && IsCents(m)
    ensures HalfUpCents(m) == m
  {
    var n := (m * 100.0).Floor;
    assert m * 100.0 + 0.5 == n as real + 0.5;
    assert (m * 100.0 + 0.5).Floor == n;
  }

  /** `parseFloat(x.toFixed(2))`: the magnitude is rounded to the nearest cent (halves away
      from zero) and the sign put back; magnitudes of at least 10^21 are left as they are. */
  function RoundCents(x: real): (r: real)
    ensures Abs(r - x) <= 0.005
    ensures Abs(x) < FixedLimit ==> IsCents(r)
    ensures x >= 0.0 ==> r >= 0.0
    ensures x <= 0.0 ==> r <= 0.0
    ensures IsCents(x) ==> r == x
  {
    var m := Abs(x);
    var rounded := if m >= FixedLimit then m else HalfUpCents(m);
    assert IsCents(x) ==> rounded == m by {
      if IsCents(x) {
        if x < 0.0 { NegateCents(x); }
        if m < FixedLimit { HalfUpCentsOfCents(m); }
      }
    }
    assert x < 0.0 && m < FixedLimit ==> IsCents(-rounded) by {
      if x < 0.0 && m < FixedLimit { NegateCents(rounded); }
    }
    if x < 0.0 then -rounded else rounded
  }

  /** Rounding an already rounded amount changes nothing. */
  lemma RoundCentsIdempotent(x: real)
    ensures RoundCents(RoundCents(x)) == RoundCents(x)
  {
    var r := RoundCents(x);
    if Abs(x) >= FixedLimit {
      assert Abs(r) == Abs(x);
    }
  }

  /** Half-up rounding of non-negative amounts keeps their order, and never rounds an amount
      below `FixedLimit` past it. */
  lemma HalfUpCentsMonotone(x: real, y: real)
    requires 0.0 <= x <= y
    ensures HalfUpCents(x) <= HalfUpCents(y)
    ensures x < FixedLimit ==> HalfUpCents(x) <= FixedLimit
  {
    var n := (x * 100.0 + 0.5).Floor;
    var k := (y * 100.0 + 0.5).Floor;
    assert HalfUpCents(x) == n as real / 100.0;
    assert HalfUpCents(y) == k as real / 100.0;
    assert x * 100.0 <= y * 100.0;
    assert n < k + 1;
    if x < FixedLimit {
      assert x * 100.0 < FixedLimit * 100.0;
      assert n <= 100000000000000000000000;
    }
  }

  /** Rounding never reverses the order of two non-negative amounts. */
  lemma RoundCentsMonotone(x: real, y: real)
    requires 0.0 <= x <= y
    ensures RoundCents(x) <= RoundCents(y)
  {
    HalfUpCentsMonotone(x, y);
    assert Abs(x) == x && Abs(y) == y;
    assert RoundCents(x) == if x >= FixedLimit then x else HalfUpCents(x);
    assert RoundCents(y) == if y >= FixedLimit then y else HalfUpCents(y);
  }

  /** A third of a hundred rounds to 33.33. */
  lemma RoundCentsOfThird()
    ensures RoundCents(100.0 / 3.0) == 33.33
  {
    var m := 100.0 / 3.0;
    assert m * 100.0 + 0.5 == 10000.0 / 3.0 + 0.5;
    assert 3333.0 <= m * 100.0 + 0.5 < 3334.0;
    assert (m * 100.0 + 0.5).Floor == 3333;
  }
}

=== FILE: price_calculator.dfy ===
/** The client-side price estimator `calculateClientPrice`: ticket line items, one coupon
    discount clamped to the ticket subtotal, add-on charges, a total floored at zero, and the
    four aggregates rounded to cents. The result is a provisional estimate; the backend's
    own calculation is authoritative. */
module PriceCalculator {
  import opened Wrappers
  import opened Records
  import opened Sequences
  import opened JsNumbers

  // ---------------------------------------------------------------------------------------
  // Catalogue snapshot, selections and breakdown
  // ---------------------------------------------------------------------------------------

  /** A ticket tier as the catalogue supplies it; `price` is already adjusted by the backend. */
  datatype Tier = Tier(id: Id, name: string, price: Raw, basePrice: Raw)

  /** An add-on; `includedInTicket` is the truthiness of `is_included_in_ticket`. */
  datatype AddOn = AddOn(id: Id, basePrice: Raw, includedInTicket: bool)

  /** A coupon; `maxDiscountAmount` is `effects.max_discount_amount` (`Undefined` when the
      coupon has no effects). */
  datatype Coupon = Coupon(code: string, discountType: string, discountValue: Raw, maxDiscountAmount: Raw)

  /** The catalogue. The tier list may arrive under `ticket_tiers` or `ticketTiers`;
      an absent add-on or coupon list is the empty list. */
  datatype Service = Service(
    ticketTiersSnake: Option<seq<Tier>>,
    ticketTiersCamel: Option<seq<Tier>>,
    addOns: seq<AddOn>,
    coupons: seq<Coupon>)

  /** The `tier_id` of a ticket selection, in the shapes the selection widgets produce:
      the id itself, an option object `{ value, label }`, or `null`/`undefined`. */
  datatype TierRef = PlainId(id: Id) | Boxed(value: Option<Id>) | NoTier

  datatype TicketSelection = TicketSelection(tierRef: TierRef, quantity: Raw)

  datatype AddOnSelection = AddOnSelection(addOnId: Option<Id>, quantity: Raw)

  /** The booking intent: ticket selections, add-on selections and the typed coupon code. */
  datatype Intent = Intent(tickets: seq<TicketSelection>, addOns: seq<AddOnSelection>, couponCode: string)

  /** One line per accepted ticket selection; `quantity` is the selection's raw quantity. */
  datatype LineItem = LineItem(tierRef: TierRef, name: string, quantity: Raw, unitPrice: real, subtotal: real)

  datatype Discount = Discount(name: string, amount: real)

  datatype Breakdown = Breakdown(
    baseSubtotal: real,
    adjustedSubtotal: real,
    addOnsTotal: real,
    finalTotal: real,
    lineItems: seq<LineItem>,
    discounts: seq<Discount>)

  function Min(a: real, b: real): real {
    if a <= b then a else b
  }

  function Max(a: real, b: real): real {
    if a >= b then a else b
  }

  // ---------------------------------------------------------------------------------------
  // Tickets
  // ---------------------------------------------------------------------------------------

  /** `service.ticket_tiers || service.ticketTiers || []`. An array is truthy even when
      empty, so a present snake-case list wins over the camel-case one. */
  function AvailableTiers(s: Service): (tiers: seq<Tier>)
    ensures s.ticketTiersSnake.Some? ==> tiers == s.ticketTiersSnake.value
    ensures s.ticketTiersSnake.None? && s.ticketTiersCamel.Some? ==> tiers == s.ticketTiersCamel.value
    ensures s.ticketTiersSnake.None? && s.ticketTiersCamel.None? ==> tiers == []
  {
    match s.ticketTiersSnake
    case Some(ts) => ts
    case None => s.ticketTiersCamel.GetOr([])
  }

  /** The first tier with the given id. */
  function FindTier(tiers: seq<Tier>, id: Id): Option<Tier> {
    Find(tiers, (t: Tier) => t.id == id)
  }

  /** The id a tier reference stands for, if it carries one. */
  function RefId(ref: TierRef): Option<Id> {
    match ref
    case PlainId(id) => Some(id)
    case Boxed(v) => v
    case NoTier => None
  }

  /** What resolving a selection's tier can come to in the source: a tier or none, or a
      `TypeError` thrown while evaluating the fallback lookup. */
  datatype Resolution = Resolved(tier: Option<Tier>) | TypeError

  /** Tier resolution as written: `find(t => t.id === ref) || find(t => t.id === ref.value)`.
      Tier ids are numbers, so the first lookup only succeeds for a plain id, and the second
      only for an option object (a number has no `value`). For `null`/`undefined` the second
      lookup reads `.value` of it and throws as soon as `find` calls its callback, that is,
      whenever the tier list is non-empty. */
  function ResolveTierAsWritten(tiers: seq<Tier>, ref: TierRef): (r: Resolution)
    ensures r.TypeError? <==> ref.NoTier? && |tiers| > 0
  {
    match ref
    case PlainId(id) => Resolved(FindTier(tiers, id))
    case Boxed(v) => Resolved(if v.Some? then FindTier(tiers, v.value) else None)
    case NoTier => if |tiers| == 0 then Resolved(None) else TypeError
  }

  /** Tier resolution as the estimator intends it: a selection whose tier cannot be resolved
      is skipped, never an error. The first tier whose id the reference carries. */
  function ResolveTier(tiers: seq<Tier>, ref: TierRef): (r: Option<Tier>)
    ensures r.Some? ==> r.value in tiers && Some(r.value.id) == RefId(ref)
    ensures r.None? <==> RefId(ref).None? || forall i :: 0 <= i < |tiers| ==> tiers[i].id != RefId(ref).value
  {
    match RefId(ref)
    case Some(id) => FindTier(tiers, id)
    case None => None
  }

  /** The corrected resolver agrees with the source wherever the source does not throw. */
  lemma ResolveTierAgreesWithSource(tiers: seq<Tier>, ref: TierRef)
    ensures ResolveTierAsWritten(tiers, ref).Resolved? ==> ResolveTierAsWritten(tiers, ref).tier == ResolveTier(tiers, ref)
    ensures ref.NoTier? ==> ResolveTier(tiers, ref) == None
  {
  }

  /** The input that shows the discrepancy: a selection without a tier, against any
      non-empty tier list, makes the source throw, where the corrected resolver skips it. */
  lemma MissingTierRefThrows(t: Tier)
    ensures ResolveTierAsWritten([t], NoTier) == TypeError
    ensures ResolveTier([t], NoTier) == None
  {
  }

  /** `tier.price || tier.base_price`, read with `safeParseFloat`. */
  function UnitPrice(t: Tier): (r: real)
    ensures t.price == FromNumber(0.0) ==> r == SafeParseFloat(t.basePrice)
    ensures t.price == Undefined || t.price == Null ==> r == SafeParseFloat(t.basePrice)
    ensures forall x :: t.price == FromNumber(x) && x != 0.0 ==> r == x
    ensures t.price.truthy ==> r == SafeParseFloat(t.price)
    ensures !t.price.truthy ==> r == SafeParseFloat(t.basePrice)
  {
    SafeParseFloat(if t.price.truthy then t.price else t.basePrice)
  }

  /** The line item a single ticket selection yields, if any. */
  function TicketLine(tiers: seq<Tier>, sel: TicketSelection): (r: Option<LineItem>)
    ensures r.None? <==> ResolveTier(tiers, sel.tierRef).None? || AtMostZero(sel.quantity.asNumber)
    ensures r.Some? ==> var t := ResolveTier(tiers, sel.tierRef).value;
      r.value == LineItem(sel.tierRef, t.name, sel.quantity, UnitPrice(t), UnitPrice(t) * SafeParseFloat(sel.quantity))
  {
    match ResolveTier(tiers, sel.tierRef)
    case None => None
    case Some(t) =>
      if AtMostZero(sel.quantity.asNumber) then None
      else
        var unitPrice := UnitPrice(t);
        Some(LineItem(sel.tierRef, t.name, sel.quantity, unitPrice, unitPrice * SafeParseFloat(sel.quantity)))
  }

  /** The line items for a list of selections, in input order. */
  function TicketLines(tiers: seq<Tier>, sels: seq<TicketSelection>): (lines: seq<LineItem>)
    ensures |lines| <= |sels|
    decreases |sels|
  {
    if |sels| == 0 then []
    else TicketLines(tiers, sels[..|sels| - 1]) + ToSeq(TicketLine(tiers, sels[|sels| - 1]))
  }

  /** Every line's raw quantity passes the `<= 0` skip test (so it is positive or `NaN`), and
      the line's subtotal is `unit_price × quantity`. */
  lemma {:induction false} LinesArePriced(tiers: seq<Tier>, sels: seq<TicketSelection>)
    ensures forall i :: 0 <= i < |TicketLines(tiers, sels)| ==>
      var line := TicketLines(tiers, sels)[i];
      line.subtotal == line.unitPrice * SafeParseFloat(line.quantity) && !AtMostZero(line.quantity.asNumber)
    decreases |sels|
  {
    if |sels| > 0 {
      LinesArePriced(tiers, sels[..|sels| - 1]);
    }
  }

  /** Every line item is the line of one of the selections: nothing is invented or merged. */
  lemma {:induction false} LinesComeFromSelections(tiers: seq<Tier>, sels: seq<TicketSelection>, i: int)
    requires 0 <= i < |TicketLines(tiers, sels)|
    ensures exists j :: 0 <= j < |sels| && TicketLine(tiers, sels[j]) == Some(TicketLines(tiers, sels)[i])
    decreases |sels|
  {
    var init := sels[..|sels| - 1];
    var prefix := TicketLines(tiers, init);
    if i < |prefix| {
      LinesComeFromSelections(tiers, init, i);
      var j :| 0 <= j < |init| && TicketLine(tiers, init[j]) == Some(prefix[i]);
      assert sels[j] == init[j];
    } else {
      assert TicketLine(tiers, sels[|sels| - 1]) == Some(TicketLines(tiers, sels)[i]);
    }
  }

  /** Appending a selection appends its line, if any. */
  lemma TicketLinesSnoc(tiers: seq<Tier>, sels: seq<TicketSelection>, s: TicketSelection)
    ensures TicketLines(tiers, sels + [s]) == TicketLines(tiers, sels) + ToSeq(TicketLine(tiers, s))
  {
    assert (sels + [s])[..|sels|] == sels;
  }

  /** The running `ticketSubtotal`: the sum of the line subtotals. */
  function SumSubtotals(lines: seq<LineItem>): real
    decreases |lines|
  {
    if |lines| == 0 then 0.0 else SumSubtotals(lines[..|lines| - 1]) + lines[|lines| - 1].subtotal
  }

  /** Line items distribute over concatenation of the selection list. */
  lemma {:induction false} TicketLinesAppend(tiers: seq<Tier>, a: seq<TicketSelection>, b: seq<TicketSelection>)
    ensures TicketLines(tiers, a + b) == TicketLines(tiers, a) + TicketLines(tiers, b)
    decreases |b|
  {
    if |b| == 0 {
      assert a + b == a;
    } else {
      var b' := b[..|b| - 1];
      assert (a + b)[..|a + b| - 1] == a + b';
      assert (a + b)[|a + b| - 1] == b[|b| - 1];
      TicketLinesAppend(tiers, a, b');
    }
  }

  /** The subtotal of concatenated line lists is the sum of their subtotals. */
  lemma {:induction false} SumSubtotalsAppend(x: seq<LineItem>, y: seq<LineItem>)
    ensures SumSubtotals(x + y) == SumSubtotals(x) + SumSubtotals(y)
    decreases |y|
  {
    if |y| == 0 {
      assert x + y == x;
    } else {
      var y' := y[..|y| - 1];
      assert (x + y)[..|x + y| - 1] == x + y';
      assert (x + y)[|x + y| - 1] == y[|y| - 1];
      SumSubtotalsAppend(x, y');
    }
  }

  /** Each selection, wherever it stands, contributes exactly its own line (or nothing) at
      its own place: the lines of `a + [s] + b` are those of `a`, then `s`'s, then `b`'s. */
  lemma TicketLinesSplit(tiers: seq<Tier>, a: seq<TicketSelection>, s: TicketSelection, b: seq<TicketSelection>)
    ensures TicketLines(tiers, a + [s] + b) == TicketLines(tiers, a) + ToSeq(TicketLine(tiers, s)) + TicketLines(tiers, b)
  {
    TicketLinesAppend(tiers, a + [s], b);
    TicketLinesAppend(tiers, a, [s]);
    assert [s][..0] == [];
  }

  /** Removing one selection from the list removes exactly its own line (if any) from the
      lines and exactly its own subtotal from the ticket subtotal. */
  lemma RemoveSelection(tiers: seq<Tier>, a: seq<TicketSelection>, s: TicketSelection, b: seq<TicketSelection>)
    ensures TicketLines(tiers, a + [s] + b) == TicketLines(tiers, a) + ToSeq(TicketLine(tiers, s)) + TicketLines(tiers, b)
    ensures TicketLines(tiers, a + b) == TicketLines(tiers, a) + TicketLines(tiers, b)
    ensures SumSubtotals(TicketLines(tiers, a + [s] + b))
      == SumSubtotals(TicketLines(tiers, a + b)) + SumSubtotals(ToSeq(TicketLine(tiers, s)))
  {
    TicketLinesSplit(tiers, a, s, b);
    TicketLinesAppend(tiers, a, b);
    var la, ls, lb := TicketLines(tiers, a), ToSeq(TicketLine(tiers, s)), TicketLines(tiers, b);
    SumSubtotalsAppend(la + ls, lb);
    SumSubtotalsAppend(la, ls);
    SumSubtotalsAppend(la, lb);
  }

  /** A selection whose tier cannot be resolved, or whose raw quantity is at most zero, yields
      no line and adds nothing to the subtotal. */
  lemma SkippedSelectionContributesNothing(tiers: seq<Tier>, a: seq<TicketSelection>, s: TicketSelection, b: seq<TicketSelection>)
    requires ResolveTier(tiers, s.tierRef).None? || AtMostZero(s.quantity.asNumber)
    ensures TicketLines(tiers, a + [s] + b) == TicketLines(tiers, a + b)
  {
    assert ToSeq(TicketLine(tiers, s)) == [];
    TicketLinesSplit(tiers, a, s, b);
    TicketLinesAppend(tiers, a, b);
  }

  /** An accepted selection yields exactly one line, at its own place, and adds exactly that
      line's subtotal (`unit_price × quantity`, by `TicketLine`) to the ticket subtotal. */
  lemma AcceptedSelectionAddsOneLine(tiers: seq<Tier>, a: seq<TicketSelection>, s: TicketSelection, b: seq<TicketSelection>)
    requires ResolveTier(tiers, s.tierRef).Some? && !AtMostZero(s.quantity.asNumber)
    ensures TicketLine(tiers, s).Some?
    ensures TicketLines(tiers, a + [s] + b) == TicketLines(tiers, a) + [TicketLine(tiers, s).value] + TicketLines(tiers, b)
    ensures SumSubtotals(TicketLines(tiers, a + [s] + b))
      == SumSubtotals(TicketLines(tiers, a + b)) + TicketLine(tiers, s).value.subtotal
  {
    var line := TicketLine(tiers, s).value;
    assert ToSeq(TicketLine(tiers, s)) == [line];
    RemoveSelection(tiers, a, s, b);
    assert [line][..0] == [];
    assert SumSubtotals([line]) == line.subtotal;
  }

  // ---------------------------------------------------------------------------------------
  // Coupon
  // ---------------------------------------------------------------------------------------

  /** `service.coupons.find(c => c.code === code)`: exact, case-sensitive match. */
  function FindCoupon(coupons: seq<Coupon>, code: string): (r: Option<Coupon>)
    ensures r.Some? ==> r.value in coupons && r.value.code == code
    ensures r.None? <==> forall i :: 0 <= i < |coupons| ==> coupons[i].code != code
  {
    Find(coupons, (c: Coupon) => c.code == code)
  }

  /** The discount a coupon grants on `subtotal` before it is clamped to the subtotal:
      a percentage of the subtotal, lowered to a positive cap it exceeds; a fixed amount;
      nothing for any other type (BOGO is left to the backend). */
  function CouponAmount(c: Coupon, subtotal: real): (r: real)
    ensures var potential := subtotal * (SafeParseFloat(c.discountValue) / 100.0);
      var cap := SafeParseFloat(c.maxDiscountAmount);
      c.discountType == "percentage" ==>
        && r <= potential
        && (cap > 0.0 ==> r <= cap)
        && (r == potential || (cap > 0.0 && r == cap))
    ensures c.discountType == "fixed" ==> r == SafeParseFloat(c.discountValue)
    ensures c.discountType != "percentage" && c.discountType != "fixed" ==> r == 0.0
  {
    var value := SafeParseFloat(c.discountValue);
    var cap := SafeParseFloat(c.maxDiscountAmount);
    if c.discountType == "percentage" then
      var potential := subtotal * (value / 100.0);
      if cap > 0.0 && potential > cap then cap else potential
    else if c.discountType == "fixed" then value
    else 0.0
  }

  /** The discount list: at most one entry, named after the typed code, holding the coupon's
      amount clamped to the ticket subtotal, and present only when that amount is positive. */
  function CouponDiscounts(coupons: seq<Coupon>, code: string, subtotal: real): (ds: seq<Discount>)
    ensures |ds| <= 1
    ensures FindCoupon(coupons, code).None? ==> ds == []
    ensures forall i :: 0 <= i < |ds| ==> ds[i].name == "Coupon: " + code && 0.0 < ds[i].amount <= subtotal
    ensures FindCoupon(coupons, code).Some? ==>
      var amount := Min(CouponAmount(FindCoupon(coupons, code).value, subtotal), subtotal);
      (ds == [] <==> amount <= 0.0) && (ds != [] ==> ds[0].amount == amount)
  {
    match FindCoupon(coupons, code)
    case None => []
    case Some(c) =>
      var amount := Min(CouponAmount(c, subtotal), subtotal);
      if amount > 0.0 then [Discount("Coupon: " + code, amount)] else []
  }

  /** `discounts.reduce((sum, d) => sum + safeParseFloat(d.amount), 0)`. */
  function SumDiscounts(ds: seq<Discount>): real
    decreases |ds|
  {
    if |ds| == 0 then 0.0 else SumDiscounts(ds[..|ds| - 1]) + SafeParseFloat(FromNumber(ds[|ds| - 1].amount))
  }

  /** The total discount never exceeds the ticket subtotal and is never negative. */
  lemma DiscountWithinSubtotal(coupons: seq<Coupon>, code: string, subtotal: real)
    ensures var total := SumDiscounts(CouponDiscounts(coupons, code, subtotal));
      0.0 <= total && total <= Max(subtotal, 0.0)
    ensures CouponDiscounts(coupons, code, subtotal) != [] ==>
      SumDiscounts(CouponDiscounts(coupons, code, subtotal)) == CouponDiscounts(coupons, code, subtotal)[0].amount
  {
    var ds := CouponDiscounts(coupons, code, subtotal);
    if |ds| == 1 {
      assert ds[..0] == [];
      SafeParseFloatOfNumber(ds[0].amount);
    }
  }

  // ---------------------------------------------------------------------------------------
  // Add-ons
  // ---------------------------------------------------------------------------------------

  function FindAddOn(addOns: seq<AddOn>, id: Option<Id>): Option<AddOn> {
    Find(addOns, (a: AddOn) => Some(a.id) == id)
  }

  /** What one add-on selection adds to `add_ons_total`: nothing when the add-on is unknown or
      bundled with the ticket, otherwise `base_price × quantity` (the quantity is not checked,
      so a negative one subtracts). */
  function AddOnCharge(addOns: seq<AddOn>, sel: AddOnSelection): (r: real)
    ensures FindAddOn(addOns, sel.addOnId).None? ==> r == 0.0
    ensures FindAddOn(addOns, sel.addOnId).Some? && FindAddOn(addOns, sel.addOnId).value.includedInTicket ==> r == 0.0
    ensures FindAddOn(addOns, sel.addOnId).Some? && !FindAddOn(addOns, sel.addOnId).value.includedInTicket ==>
      r == SafeParseFloat(FindAddOn(addOns, sel.addOnId).value.basePrice) * SafeParseFloat(sel.quantity)
    ensures (forall i :: 0 <= i < |addOns| ==> Some(addOns[i].id) != sel.addOnId) ==> r == 0.0
  {
    match FindAddOn(addOns, sel.addOnId)
    case None => 0.0
    case Some(a) =>
      if a.includedInTicket then 0.0 else SafeParseFloat(a.basePrice) * SafeParseFloat(sel.quantity)
  }

  function AddOnsTotal(addOns: seq<AddOn>, sels: seq<AddOnSelection>): real
    decreases |sels|
  {
    if |sels| == 0 then 0.0 else AddOnsTotal(addOns, sels[..|sels| - 1]) + AddOnCharge(addOns, sels[|sels| - 1])
  }

  /** The add-on total is additive over the selection list. */
  lemma {:induction false} AddOnsTotalAppend(addOns: seq<AddOn>, a: seq<AddOnSelection>, b: seq<AddOnSelection>)
    ensures AddOnsTotal(addOns, a + b) == AddOnsTotal(addOns, a) + AddOnsTotal(addOns, b)
    decreases |b|
  {
    if |b| == 0 {
      assert a + b == a;
    } else {
      var b' := b[..|b| - 1];
      assert (a + b)[..|a + b| - 1] == a + b';
      assert (a + b)[|a + b| - 1] == b[|b| - 1];
      AddOnsTotalAppend(addOns, a, b');
    }
  }

  /** One selection's charge, wherever it stands in the list, is exactly its share of the total. */
  lemma AddOnsTotalSplit(addOns: seq<AddOn>, a: seq<AddOnSelection>, s: AddOnSelection, b: seq<AddOnSelection>)
    ensures AddOnsTotal(addOns, a + [s] + b) == AddOnsTotal(addOns, a + b) + AddOnCharge(addOns, s)
  {
    AddOnsTotalAppend(addOns, a + [s], b);
    AddOnsTotalAppend(addOns, a, [s]);
    AddOnsTotalAppend(addOns, a, b);
    assert [s][..0] == [];
  }

  /** An unknown or ticket-included add-on contributes nothing wherever it is selected, while
      any other adds exactly `base_price × quantity`. */
  lemma AddOnSelectionContribution(addOns: seq<AddOn>, a: seq<AddOnSelection>, s: AddOnSelection, b: seq<AddOnSelection>)
    ensures FindAddOn(addOns, s.addOnId).None? || FindAddOn(addOns, s.addOnId).value.includedInTicket ==>
      AddOnsTotal(addOns, a + [s] + b) == AddOnsTotal(addOns, a + b)
    ensures FindAddOn(addOns, s.addOnId).Some? && !FindAddOn(addOns, s.addOnId).value.includedInTicket ==>
      AddOnsTotal(addOns, a + [s] + b)
      == AddOnsTotal(addOns, a + b) + SafeParseFloat(FindAddOn(addOns, s.addOnId).value.basePrice) * SafeParseFloat(s.quantity)
  {
    AddOnsTotalSplit(addOns, a, s, b);
  }

  // ---------------------------------------------------------------------------------------
  // The estimate
  // ---------------------------------------------------------------------------------------

  /** The unrounded final total: subtotal less discounts plus add-ons, floored at zero. */
  function FinalTotal(subtotal: real, discount: real, addOnsTotal: real): (r: real)
    ensures r >= 0.0
    ensures r >= subtotal - discount + addOnsTotal
    ensures r == 0.0 || r == subtotal - discount + addOnsTotal
  {
    Max(0.0, subtotal - discount + addOnsTotal)
  }

  /** `calculateClientPrice` as a definition: every step computed at full precision, and only
      the four aggregates rounded to cents at the end. Tiers are resolved with the corrected
      `ResolveTier`: on a selection without `tier_id` the source throws instead. */
  function Calculate(intent: Intent, service: Service): Breakdown {
    var lines := TicketLines(AvailableTiers(service), intent.tickets);
    var subtotal := SumSubtotals(lines);
    Assemble(lines, subtotal, CouponDiscounts(service.coupons, intent.couponCode, subtotal),
             AddOnsTotal(service.addOns, intent.addOns))
  }

  /** Step 4 of the source: the response object, with the four aggregates rounded to cents. */
  function Assemble(lines: seq<LineItem>, subtotal: real, discounts: seq<Discount>, addOnsTotal: real): Breakdown {
    var finalTotal := FinalTotal(subtotal, SumDiscounts(discounts), addOnsTotal);
    Breakdown(RoundCents(subtotal), RoundCents(subtotal), RoundCents(addOnsTotal), RoundCents(finalTotal), lines, discounts)
  }

  /** The aggregate arithmetic on its own: with a discount between zero and the (non-negative
      part of the) subtotal, the rounded total is never negative, is within half a cent of the
      floored total, and the discount never eats into the (rounded) add-on total. */
  lemma TotalBounds(subtotal: real, discount: real, addOns: real)
    requires 0.0 <= discount <= Max(subtotal, 0.0)
    ensures var total := RoundCents(FinalTotal(subtotal, discount, addOns));
      && total >= 0.0
      && Abs(total - Max(0.0, subtotal - discount + addOns)) <= 0.005
      && (Max(0.0, subtotal - discount + addOns) < FixedLimit ==> IsCents(total))
      && (subtotal >= 0.0 && addOns >= 0.0 ==> total >= RoundCents(addOns))
  {
    if subtotal >= 0.0 && addOns >= 0.0 {
      RoundCentsMonotone(addOns, FinalTotal(subtotal, discount, addOns));
    }
  }

  /** The breakdown's headline guarantees, for a ticket subtotal, discount total and add-on
      total: the base and adjusted subtotals agree and are within half a cent of the ticket
      subtotal, the add-on total within half a cent of the add-on charges; the total is never
      negative and is within half a cent of `max(0, subtotal − discount + add-ons)`; each
      aggregate is a whole number of cents (below `toFixed`'s exponential range); and the
      discount never brings the total below the add-on total. */
  predicate RoundedWell(b: Breakdown, subtotal: real, discount: real, addOns: real) {
    && b.adjustedSubtotal == b.baseSubtotal
    && Abs(b.baseSubtotal - subtotal) <= 0.005
    && Abs(b.addOnsTotal - addOns) <= 0.005
    && b.finalTotal >= 0.0
    && Abs(b.finalTotal - Max(0.0, subtotal - discount + addOns)) <= 0.005
    && (Abs(subtotal) < FixedLimit ==> IsCents(b.baseSubtotal) && IsCents(b.adjustedSubtotal))
    && (Abs(addOns) < FixedLimit ==> IsCents(b.addOnsTotal))
    && (Max(0.0, subtotal - discount + addOns) < FixedLimit ==> IsCents(b.finalTotal))
    && (subtotal >= 0.0 && addOns >= 0.0 ==> b.finalTotal >= b.addOnsTotal)
  }

  /** Every estimate meets `RoundedWell` for its own subtotal, discount and add-on totals,
      and carries at most one discount, positive and at most the ticket subtotal. */
  lemma BreakdownInvariants(intent: Intent, service: Service)
    ensures var b := Calculate(intent, service);
      var subtotal := SumSubtotals(b.lineItems);
      var discount := SumDiscounts(b.discounts);
      && RoundedWell(b, subtotal, discount, AddOnsTotal(service.addOns, intent.addOns))
      && |b.discounts| <= 1
      && 0.0 <= discount <= Max(subtotal, 0.0)
  {
    var lines := TicketLines(AvailableTiers(service), intent.tickets);
    var subtotal := SumSubtotals(lines);
    var discounts := CouponDiscounts(service.coupons, intent.couponCode, subtotal);
    var addOns := AddOnsTotal(service.addOns, intent.addOns);
    assert Calculate(intent, service) == Assemble(lines, subtotal, discounts, addOns);
    DiscountWithinSubtotal(service.coupons, intent.couponCode, subtotal);
    AssembleInvariants(lines, subtotal, discounts, addOns);
  }

  /** The rounding step on its own, for any discount list within the subtotal. */
  lemma AssembleInvariants(lines: seq<LineItem>, subtotal: real, discounts: seq<Discount>, addOns: real)
    requires 0.0 <= SumDiscounts(discounts) <= Max(subtotal, 0.0)
    ensures var b := Assemble(lines, subtotal, discounts, addOns);
      b.lineItems == lines && b.discounts == discounts && RoundedWell(b, subtotal, SumDiscounts(discounts), addOns)
  {
    TotalBounds(subtotal, SumDiscounts(discounts), addOns);
  }

  /** A code no coupon carries leaves the discount list empty and the total at
      `max(0, subtotal + add-ons)`. */
  lemma UnknownCouponNoDiscount(intent: Intent, service: Service)
    requires forall i :: 0 <= i < |service.coupons| ==> service.coupons[i].code != intent.couponCode
    ensures var b := Calculate(intent, service);
      var subtotal := SumSubtotals(b.lineItems);
      && b.discounts == []
      && b.finalTotal == RoundCents(Max(0.0, subtotal + AddOnsTotal(service.addOns, intent.addOns)))
  {
    var lines := TicketLines(AvailableTiers(service), intent.tickets);
    var subtotal := SumSubtotals(lines);
    var addOns := AddOnsTotal(service.addOns, intent.addOns);
    assert CouponDiscounts(service.coupons, intent.couponCode, subtotal) == [] by {
      assert FindCoupon(service.coupons, intent.couponCode).None?;
    }
    assert Calculate(intent, service) == Assemble(lines, subtotal, [], addOns);
    AssembleWithoutDiscount(lines, subtotal, addOns);
  }

  /** The rounding step with no discount: the total is the rounded floored sum. */
  lemma AssembleWithoutDiscount(lines: seq<LineItem>, subtotal: real, addOns: real)
    ensures var b := Assemble(lines, subtotal, [], addOns);
      b.lineItems == lines && b.discounts == [] && b.finalTotal == RoundCents(Max(0.0, subtotal + addOns))
  {
    assert SumDiscounts([]) == 0.0;
  }

  /** A lone coupon is found by its own code. */
  lemma FindOnlyCoupon(c: Coupon)
    ensures FindCoupon([c], c.code) == Some(c)
  {
    assert [c][0] == c;
  }

  /** A 50% coupon capped at 30 on a subtotal of 100 grants the cap, leaving 70. */
  lemma PercentageCapExample(c: Coupon)
    requires c.code == "SAVE" && c.discountType == "percentage"
    requires c.discountValue == FromNumber(50.0) && c.maxDiscountAmount == FromNumber(30.0)
    ensures CouponDiscounts([c], "SAVE", 100.0) == [Discount("Coupon: SAVE", 30.0)]
    ensures FinalTotal(100.0, SumDiscounts(CouponDiscounts([c], "SAVE", 100.0)), 0.0) == 70.0
  {
    FindOnlyCoupon(c);
    assert "Coupon: " + "SAVE" == "Coupon: SAVE";
    DiscountWithinSubtotal([c], "SAVE", 100.0);
  }

  /** A 20% coupon without a cap on a subtotal of 100 grants 20, leaving 80. */
  lemma PercentageUncappedExample(c: Coupon)
    requires c.code == "SAVE" && c.discountType == "percentage"
    requires c.discountValue == FromNumber(20.0) && c.maxDiscountAmount == Undefined
    ensures CouponDiscounts([c], "SAVE", 100.0) == [Discount("Coupon: SAVE", 20.0)]
    ensures FinalTotal(100.0, SumDiscounts(CouponDiscounts([c], "SAVE", 100.0)), 0.0) == 80.0
  {
    FindOnlyCoupon(c);
    assert "Coupon: " + "SAVE" == "Coupon: SAVE";
    DiscountWithinSubtotal([c], "SAVE", 100.0);
  }

  /** A fixed coupon of 50 on a subtotal of 10 is clamped to 10 and the total is 0, not
      negative. */
  lemma FixedClampExample(c: Coupon)
    requires c.code == "TEN" && c.discountType == "fixed" && c.discountValue == FromNumber(50.0)
    ensures CouponDiscounts([c], "TEN", 10.0) == [Discount("Coupon: TEN", 10.0)]
    ensures FinalTotal(10.0, SumDiscounts(CouponDiscounts([c], "TEN", 10.0)), 0.0) == 0.0
  {
    FindOnlyCoupon(c);
    assert "Coupon: " + "TEN" == "Coupon: TEN";
    DiscountWithinSubtotal([c], "TEN", 10.0);
  }

  /** The skip test compares with `NaN` and so lets an unreadable quantity through: a
      selection whose quantity is `undefined` still yields a line, priced at 0. */
  lemma UnreadableQuantityKeepsLine(t: Tier)
    ensures TicketLines([t], [TicketSelection(PlainId(t.id), Undefined)])
      == [LineItem(PlainId(t.id), t.name, Undefined, UnitPrice(t), 0.0)]
  {
    var sels := [TicketSelection(PlainId(t.id), Undefined)];
    assert sels[..0] == [];
    assert ResolveTier([t], PlainId(t.id)) == Some(t) by {
      assert [t][0].id == t.id;
    }
  }

  /** A bundled add-on selected three times adds nothing. */
  lemma IncludedAddOnExample(a: AddOn, sel: AddOnSelection)
    requires a.includedInTicket && sel.addOnId == Some(a.id) && sel.quantity == FromNumber(3.0)
    ensures AddOnsTotal([a], [sel]) == 0.0
  {
    assert [sel][..0] == [];
  }

  /** One more selection of the prefix adds that selection's line, if any. */
  lemma TicketLinesStep(tiers: seq<Tier>, tickets: seq<TicketSelection>, i: int)
    requires 0 <= i < |tickets|
    ensures TicketLines(tiers, tickets[..i + 1]) == TicketLines(tiers, tickets[..i]) + ToSeq(TicketLine(tiers, tickets[i]))
  {
    assert tickets[..i + 1] == tickets[..i] + [tickets[i]];
    TicketLinesSnoc(tiers, tickets[..i], tickets[i]);
  }

  /** One more line adds its subtotal; a skipped selection adds nothing. */
  lemma SumSubtotalsStep(lines: seq<LineItem>, line: Option<LineItem>)
    ensures line.Some? ==> SumSubtotals(lines + [line.value]) == SumSubtotals(lines) + line.value.subtotal
    ensures line.None? ==> lines + ToSeq(line) == lines
    ensures line.Some? ==> lines + ToSeq(line) == lines + [line.value]
  {
    if line.Some? {
      assert (lines + [line.value])[..|lines|] == lines;
    } else {
      assert lines + [] == lines;
    }
  }

  /** One pass of the ticket loop: resolve the tier, skip the selection or append its line
      and add its subtotal. */
  method TicketStep(tiers: seq<Tier>, tickets: seq<TicketSelection>, i: int, lines: seq<LineItem>, ticketSubtotal: real)
    returns (lines': seq<LineItem>, ticketSubtotal': real)
    requires 0 <= i < |tickets|
    requires lines == TicketLines(tiers, tickets[..i]) && ticketSubtotal == SumSubtotals(lines)
    ensures lines' == TicketLines(tiers, tickets[..i + 1]) && ticketSubtotal' == SumSubtotals(lines')
  {
    var line := TicketLine(tiers, tickets[i]);
    TicketLinesStep(tiers, tickets, i);
    SumSubtotalsStep(lines, line);
    lines', ticketSubtotal' := lines, ticketSubtotal;
    if line.Some? {
      lines' := lines + [line.value];
      ticketSubtotal' := ticketSubtotal + line.value.subtotal;
    }
  }

  /** Step 1 of the source: the ticket loop, building the lines and the running subtotal. */
  method ProcessTickets(tiers: seq<Tier>, tickets: seq<TicketSelection>) returns (lines: seq<LineItem>, ticketSubtotal: real)
    ensures lines == TicketLines(tiers, tickets)
    ensures ticketSubtotal == SumSubtotals(lines)
  {
    lines := [];
    ticketSubtotal := 0.0;
    var i := 0;
    while i < |tickets|
      invariant 0 <= i <= |tickets|
      invariant lines == TicketLines(tiers, tickets[..i])
      invariant ticketSubtotal == SumSubtotals(lines)
    {
      lines, ticketSubtotal := TicketStep(tiers, tickets, i, lines, ticketSubtotal);
      i := i + 1;
    }
    assert tickets[..i] == tickets;
  }

  /** Step 3 of the source: the add-on loop. */
  method ProcessAddOns(addOns: seq<AddOn>, sels: seq<AddOnSelection>) returns (addOnsTotal: real)
    ensures addOnsTotal == AddOnsTotal(addOns, sels)
  {
    addOnsTotal := 0.0;
    var k := 0;
    while k < |sels|
      invariant 0 <= k <= |sels|
      invariant addOnsTotal == AddOnsTotal(addOns, sels[..k])
    {
      assert sels[..k + 1][..k] == sels[..k];
      var selection := sels[k];
      var addOn := FindAddOn(addOns, selection.addOnId);
      var addOnPrice := if addOn.Some? then SafeParseFloat(addOn.value.basePrice) else SafeParseFloat(Undefined);
      var addOnQuantity := SafeParseFloat(selection.quantity);
      if addOn.Some? && !addOn.value.includedInTicket {
        addOnsTotal := addOnsTotal + addOnPrice * addOnQuantity;
      }
      k := k + 1;
    }
    assert sels[..k] == sels;
  }

  /** Step 4's `reduce` over the discount list. */
  method TotalDiscountAmount(discounts: seq<Discount>) returns (total: real)
    ensures total == SumDiscounts(discounts)
  {
    total := 0.0;
    var d := 0;
    while d < |discounts|
      invariant 0 <= d <= |discounts|
      invariant total == SumDiscounts(discounts[..d])
    {
      assert discounts[..d + 1][..d] == discounts[..d];
      total := total + SafeParseFloat(FromNumber(discounts[d].amount));
      d := d + 1;
    }
    assert discounts[..d] == discounts;
  }

  /** Step 2 of the source: look the code up, compute the coupon's amount, clamp it to the
      ticket subtotal and record it when positive. */
  method ApplyCoupon(coupons: seq<Coupon>, code: string, ticketSubtotal: real) returns (discounts: seq<Discount>)
    ensures discounts == CouponDiscounts(coupons, code, ticketSubtotal)
  {
    discounts := [];
    var coupon := FindCoupon(coupons, code);
    if coupon.Some? {
      var totalDiscount := CouponAmount(coupon.value, ticketSubtotal);
      totalDiscount := Min(totalDiscount, ticketSubtotal);
      if totalDiscount > 0.0 {
        discounts := discounts + [Discount("Coupon: " + code, totalDiscount)];
      }
    }
  }

  /** `calculateClientPrice` step by step: the ticket loop, the coupon, the add-on loop, the
      discount total, then the rounding. Tiers are resolved with the corrected `ResolveTier`,
      so a selection without `tier_id` is skipped here where the source throws
      (`ResolveTierAsWritten`). */
  method CalculateClientPrice(intent: Intent, service: Service) returns (b: Breakdown)
    ensures b == Calculate(intent, service)
  {
    var lines, ticketSubtotal := ProcessTickets(AvailableTiers(service), intent.tickets);
    var discounts := ApplyCoupon(service.coupons, intent.couponCode, ticketSubtotal);
    var addOnsTotal := ProcessAddOns(service.addOns, intent.addOns);
    var totalDiscountAmount := TotalDiscountAmount(discounts);
    var finalTotal := Max(0.0, ticketSubtotal - totalDiscountAmount + addOnsTotal);
    assert finalTotal == FinalTotal(ticketSubtotal, SumDiscounts(discounts), addOnsTotal);
    b := Breakdown(RoundCents(ticketSubtotal), RoundCents(ticketSubtotal), RoundCents(addOnsTotal), RoundCents(finalTotal), lines, discounts);
    assert b == Assemble(lines, ticketSubtotal, discounts, addOnsTotal);
  }

}

=== FILE: pricing_rule_store.dfy ===
/** The pricing-rule list of one service: the rules in priority order, reordered locally,
    and the id order last loaded or saved, against which unsaved changes are detected. */
module PricingRuleStore {
  import opened Records
  import opened Sequences

  /** A pricing rule; only its id matters to the ordering, the rest is carried along. */
  datatype Rule = Rule(id: Id, details: string)

  /** The store's state: the rules as shown, and the id order of the last load or save. */
  datatype State = State(rules: seq<Rule>, initialOrder: seq<Id>, serviceName: string)

  /** The outcome of a backend request: it failed, or it delivered `data`. */
  datatype Fetched<T> = Failed | Received(data: T)

  function RuleId(r: Rule): Id {
    r.id
  }

  /** `rules.map((r) => r.id)`. */
  function Ids(rules: seq<Rule>): (ids: seq<Id>)
    ensures |ids| == |rules| && forall i :: 0 <= i < |rules| ==> ids[i] == rules[i].id
  {
    Map(rules, RuleId)
  }

  /** `hasOrderChanged`: a length mismatch, or else a difference in the serialized id lists.
      Ids are integers, so two serializations agree exactly when the id lists are equal. */
  predicate HasOrderChanged(st: State) {
    if |st.rules| != |st.initialOrder| then true
    else Ids(st.rules) != st.initialOrder
  }

  /** The length test is only a shortcut: the order has changed exactly when the current id
      list differs from the recorded one. */
  lemma {:induction false} HasOrderChangedIff(st: State)
    ensures HasOrderChanged(st) <==> Ids(st.rules) != st.initialOrder
  {
    if |st.rules| != |st.initialOrder| {
      assert |Ids(st.rules)| != |st.initialOrder|;
    }
  }

  /** `initialize(serviceId)`: when both requests succeed, the name and rules are taken and
      their id order becomes the baseline; when either fails, nothing changes. */
  function Initialize(st: State, response: Fetched<(string, seq<Rule>)>): (r: State)
    ensures response.Failed? ==> r == st
    ensures response.Received? ==> r.rules == response.data.1 && r.serviceName == response.data.0 && !HasOrderChanged(r)
  {
    match response
    case Failed => st
    case Received((name, rules)) => State(rules, Ids(rules), name)
  }

  /** `reorderRule({oldIndex, newIndex})`: the same splice-based move as for ticket tiers; the
      baseline is untouched. */
  function ReorderRule(st: State, oldIndex: int, newIndex: int): (r: State)
    requires oldIndex == newIndex || SpliceStart(oldIndex, |st.rules|) < |st.rules|
    ensures oldIndex == newIndex ==> r == st
    ensures |r.rules| == |st.rules| && multiset(r.rules) == multiset(st.rules)
    ensures oldIndex != newIndex && 0 <= newIndex < |st.rules| ==>
      var from := SpliceStart(oldIndex, |st.rules|);
      r.rules[newIndex] == st.rules[from] && RemoveAt(r.rules, newIndex) == RemoveAt(st.rules, from)
    ensures r.initialOrder == st.initialOrder && r.serviceName == st.serviceName
  {
    if oldIndex == newIndex then st else st.(rules := Move(st.rules, SpliceStart(oldIndex, |st.rules|), newIndex))
  }

  /** `updateRuleOrder(newOrder)`: the list is replaced and the baseline kept, so the order
      counts as changed exactly when the new ids differ from the baseline. */
  function UpdateRuleOrder(st: State, newOrder: seq<Rule>): (r: State)
    ensures r.rules == newOrder && r.initialOrder == st.initialOrder && r.serviceName == st.serviceName
    ensures HasOrderChanged(r) <==> Ids(newOrder) != st.initialOrder
  {
    HasOrderChangedIff(st.(rules := newOrder));
    st.(rules := newOrder)
  }

  /** `saveOrder(serviceId)`: the request carries the current id order; on success that order
      becomes the baseline, on failure nothing changes. */
  function SaveOrder(st: State, succeeded: bool): (r: State)
    ensures r.rules == st.rules && r.serviceName == st.serviceName
    ensures succeeded ==> r.initialOrder == Ids(st.rules) && !HasOrderChanged(r)
    ensures !succeeded ==> r == st
  {
    if succeeded then st.(initialOrder := Ids(st.rules)) else st
  }

  /** On a list with distinct ids and no unsaved change, a real drag marks the order as
      changed. */
  lemma ReorderMarksChanged(st: State, oldIndex: int, newIndex: int)
    requires forall i, j :: 0 <= i < j < |st.rules| ==> st.rules[i].id != st.rules[j].id
    requires !HasOrderChanged(st)
    requires 0 <= oldIndex < |st.rules| && 0 <= newIndex < |st.rules| && oldIndex != newIndex
    ensures HasOrderChanged(ReorderRule(st, oldIndex, newIndex))
  {
    var ids := Ids(st.rules);
    HasOrderChangedIff(st);
    MapMove(st.rules, RuleId, oldIndex, newIndex);
    MoveChanges(ids, oldIndex, newIndex);
    HasOrderChangedIff(ReorderRule(st, oldIndex, newIndex));
  }

  /** Dragging a rule back to where it came from clears the change again. */
  lemma ReorderBackUnchanged(st: State, oldIndex: int, newIndex: int)
    requires !HasOrderChanged(st)
    requires 0 <= oldIndex < |st.rules| && 0 <= newIndex < |st.rules|
    ensures ReorderRule(ReorderRule(st, oldIndex, newIndex), newIndex, oldIndex) == st
    ensures !HasOrderChanged(ReorderRule(ReorderRule(st, oldIndex, newIndex), newIndex, oldIndex))
  {
    if oldIndex != newIndex {
      MoveRoundTrip(st.rules, oldIndex, newIndex);
    }
  }

  /** A drag only changes the order, so the saved baseline after a drag and a successful save
      is the dragged id list. */
  lemma SaveAfterReorder(st: State, oldIndex: int, newIndex: int)
    requires 0 <= oldIndex < |st.rules| && oldIndex != newIndex
    ensures SaveOrder(ReorderRule(st, oldIndex, newIndex), true).initialOrder == Move(Ids(st.rules), oldIndex, newIndex)
  {
    MapMove(st.rules, RuleId, oldIndex, newIndex);
  }
}

=== FILE: records.dfy ===
/** Identifiers of backend records. */
module Records {

  /** A backend record id. Ids are positive integers, so a present id is always truthy and
      `!row.id` holds exactly for a row that has not been saved yet. */
  type Id = k: int | k > 0 witness 1
}

=== FILE: router.dfy ===
/** The admin application's route table and its global navigation guard. */
module Router {
  import opened Wrappers

  /** A route record: a path segment, an optional name, the `meta.requiresAuth` flag (a record
      without it reads as `false`) and the nested records. */
  datatype Route = Route(path: string, name: Option<string>, requiresAuth: bool, children: seq<Route>)

  /** A leaf record with a name and no `meta`. */
  function Page(path: string, name: string): Route {
    Route(path, Some(name), false, [])
  }

  // ---------------------------------------------------------------- the route table

  const ServiceEditRoute := Route("services/:id", Some("admin-service-edit"), false, [
    Page("details", "admin-service-edit-details"),
    Page("operating-hours", "admin-service-operating-hours"),
    Page("ticket-tiers", "admin-service-ticket-tiers"),
    Page("pricing-rules", "admin-service-pricing-rules"),
    Page("pricing-rules/create", "admin-service-pricing-rule-create"),
    Page("pricing-rules/:ruleId/edit", "admin-service-pricing-rule-edit"),
    Page("coupons", "admin-service-coupons"),
    Page("coupons/create", "admin-service-coupon-create"),
    Page("coupons/:couponId/edit", "admin-service-coupon-edit"),
    Page("add-ons", "admin-service-add-ons")
  ])

  const DashboardRoute := Page("dashboard", "admin-dashboard")

  /** The admin layout: unnamed, the only record that sets `requiresAuth`. */
  const AdminRoute := Route("/admin", None, true, [
    DashboardRoute,
    Page("services", "admin-services"),
    Page("services/create", "admin-service-create"),
    Page("bookings", "admin-bookings"),
    Page("customers", "admin-customers"),
    Page("customers/:id", "admin-customer-details"),
    Page("analytics", "admin-analytics"),
    Page("team", "admin-team"),
    Page("locations", "admin-locations"),
    Page("payments", "admin-payments"),
    ServiceEditRoute
  ])

  const LoginRoute := Page("/login", "login")

  /** The top-level records in declaration order; the last is the unnamed catch-all. */
  const Routes: seq<Route> := [
    Page("/booking-flow", "booking-flow"),
    LoginRoute,
    Page("/signup", "signup"),
    AdminRoute,
    Page("/set-password/:token", "set-password"),
    Route("/:pathMatch(.*)*", None, false, [])
  ]

  // ---------------------------------------------------------------- matching

  /** The matched records of a navigation to the route named `name`: the records from a
      top-level route down to the named one, searching in declaration order. */
  function Resolve(routes: seq<Route>, name: string): (chain: Option<seq<Route>>)
    ensures chain.Some? ==> |chain.value| > 0 && chain.value[0] in routes
    ensures chain.Some? ==> chain.value[|chain.value| - 1].name == Some(name)
    ensures chain.Some? ==> forall i :: 0 < i < |chain.value| ==> chain.value[i] in chain.value[i - 1].children
    decreases routes
  {
    if |routes| == 0 then None
    else if routes[0].name == Some(name) then Some([routes[0]])
    else match Resolve(routes[0].children, name)
      case Some(below) =>
        assert below[0] in routes[0].children;
        Some([routes[0]] + below)
      case None =>
        var rest := Resolve(routes[1..], name);
        assert rest.Some? ==> rest.value[0] in routes by {
          if rest.Some? {
            assert rest.value[0] in routes[1..];
          }
        }
        rest
  }

  /** Some record of `routes`, at any depth, carries the name `name`. */
  predicate Named(routes: seq<Route>, name: string)
    decreases routes
  {
    |routes| > 0 &&
    (routes[0].name == Some(name) || Named(routes[0].children, name) || Named(routes[1..], name))
  }

  /** Resolution succeeds exactly for the names the table carries. */
  lemma {:induction false} ResolveComplete(routes: seq<Route>, name: string)
    ensures Resolve(routes, name).Some? <==> Named(routes, name)
    decreases routes
  {
    if |routes| > 0 && routes[0].name != Some(name) {
      ResolveComplete(routes[0].children, name);
      ResolveComplete(routes[1..], name);
    }
  }

  /** A record anywhere in a list, or anywhere below one, names something in the list. */
  lemma {:induction false} NamedWithin(routes: seq<Route>, i: int, name: string)
    requires 0 <= i < |routes|
    requires routes[i].name == Some(name) || Named(routes[i].children, name)
    ensures Named(routes, name)
    decreases i
  {
    if i > 0 {
      NamedWithin(routes[1..], i - 1, name);
    }
  }

  /** Every named child of a top-level record resolves, so every page under the admin layout
      can be navigated to by name. */
  lemma ChildResolves(i: int, j: int)
    requires 0 <= i < |Routes| && 0 <= j < |Routes[i].children| && Routes[i].children[j].name.Some?
    ensures Resolve(Routes, Routes[i].children[j].name.value).Some?
  {
    var name := Routes[i].children[j].name.value;
    NamedWithin(Routes[i].children, j, name);
    NamedWithin(Routes, i, name);
    ResolveComplete(Routes, name);
  }

  /** `to.matched.some((record) => record.meta.requiresAuth)`. */
  predicate RequiresAuth(matched: seq<Route>) {
    exists i :: 0 <= i < |matched| && matched[i].requiresAuth
  }

  // ---------------------------------------------------------------- the guard

  /** What the guard tells the router: let the navigation through, or send it to a named
      route instead. */
  datatype Decision = Proceed | RedirectTo(target: string)

  /** The `beforeEach` guard, after the pending token login has settled: protected routes
      need a signed-in user; a signed-in user is sent from the login and sign-up pages to the
      dashboard; everything else goes through. */
  function Guard(matched: seq<Route>, to: Option<string>, authenticated: bool): (d: Decision)
    ensures d == RedirectTo("login") <==> RequiresAuth(matched) && !authenticated
    ensures d == RedirectTo("admin-dashboard") <==>
      authenticated && (to == Some("login") || to == Some("signup"))
    ensures d.RedirectTo? ==> d.target == "login" || d.target == "admin-dashboard"
  {
    if RequiresAuth(matched) && !authenticated then RedirectTo("login")
    else if (to == Some("login") || to == Some("signup")) && authenticated then RedirectTo("admin-dashboard")
    else Proceed
  }

  /** A visitor who is not signed in never reaches a protected route. */
  lemma ProtectedNeedsSignIn(matched: seq<Route>, to: Option<string>, authenticated: bool)
    requires RequiresAuth(matched)
    ensures Guard(matched, to, authenticated) == Proceed ==> authenticated
  {
  }

  /** A signed-in user never lands on the login or sign-up page. */
  lemma SignedInSkipsAuthPages(matched: seq<Route>, to: Option<string>)
    requires to == Some("login") || to == Some("signup")
    ensures Guard(matched, to, true) != Proceed
  {
  }

  /** Every record below the admin layout, at any depth, is protected through it, and no
      other route is protected: a named navigation requires sign-in exactly when its first
      matched record is the admin layout. */
  lemma RequiresAuthIffUnderAdmin(name: string)
    requires Resolve(Routes, name).Some?
    ensures var chain := Resolve(Routes, name).value;
      RequiresAuth(chain) <==> chain[0] == AdminRoute
  {
    var chain := Resolve(Routes, name).value;
    if chain[0] == AdminRoute {
      assert chain[0].requiresAuth;
    } else {
      assert chain[0] in Routes;
      assert chain == [chain[0]] by {
        TopLevelLeaf(Routes, name);
      }
      assert !chain[0].requiresAuth;
    }
  }

  /** When the first matched record is a top-level leaf, it is the whole chain. */
  lemma {:induction false} TopLevelLeaf(routes: seq<Route>, name: string)
    requires Resolve(routes, name).Some? && Resolve(routes, name).value[0].children == []
    ensures Resolve(routes, name).value == [Resolve(routes, name).value[0]]
    decreases routes
  {
    if routes[0].name != Some(name) {
      var below := Resolve(routes[0].children, name);
      if below.None? {
        TopLevelLeaf(routes[1..], name);
      }
    }
  }

  /** The login page is matched on its own. */
  lemma LoginResolves()
    ensures Resolve(Routes, "login") == Some([LoginRoute])
  {
    assert Routes[0].children == [] && Routes[1..][0] == LoginRoute;
    assert Resolve(Routes, "login") == Resolve(Routes[1..], "login");
  }

  /** A leaf record that does not carry the name is passed over. */
  lemma SkipLeaf(routes: seq<Route>, name: string)
    requires |routes| > 0 && routes[0].children == [] && routes[0].name != Some(name)
    ensures Resolve(routes, name) == Resolve(routes[1..], name)
  {
  }

  /** The dashboard is the first child of the admin layout. */
  lemma DashboardUnderAdmin()
    ensures Resolve(Routes[3..], "admin-dashboard") == Some([AdminRoute, DashboardRoute])
  {
    assert Resolve(AdminRoute.children, "admin-dashboard") == Some([DashboardRoute]) by {
      assert AdminRoute.children[0] == DashboardRoute;
    }
    assert Routes[3..][0] == AdminRoute && AdminRoute.name.None?;
    assert [AdminRoute] + [DashboardRoute] == [AdminRoute, DashboardRoute];
  }

  /** The dashboard is matched below the admin layout, the routes before it being leaves of
      other names. */
  lemma DashboardResolves()
    ensures Resolve(Routes, "admin-dashboard") == Some([AdminRoute, DashboardRoute])
  {
    DashboardUnderAdmin();
    assert Routes[2..][1..] == Routes[3..];
    SkipLeaf(Routes[2..], "admin-dashboard");
    assert Routes[1..][1..] == Routes[2..];
    SkipLeaf(Routes[1..], "admin-dashboard");
    SkipLeaf(Routes, "admin-dashboard");
  }

  /** A guest asking for the login page is let through. */
  lemma LoginAdmitsGuests()
    ensures Guard([LoginRoute], Some("login"), false) == Proceed
  {
    assert !RequiresAuth([LoginRoute]);
  }

  /** A signed-in user asking for the dashboard is let through. */
  lemma DashboardAdmitsMembers()
    ensures Guard([AdminRoute, DashboardRoute], Some("admin-dashboard"), true) == Proceed
  {
    assert RequiresAuth([AdminRoute, DashboardRoute]) by {
      assert [AdminRoute, DashboardRoute][0].requiresAuth;
    }
  }

  /** No redirect loop: whatever route is requested, a redirect goes to a route that the
      guard then lets through for the same user. */
  lemma RedirectSettles(matched: seq<Route>, to: Option<string>, authenticated: bool)
    requires Guard(matched, to, authenticated).RedirectTo?
    ensures var t := Guard(matched, to, authenticated).target;
      Resolve(Routes, t).Some? && Guard(Resolve(Routes, t).value, Some(t), authenticated) == Proceed
  {
    var d := Guard(matched, to, authenticated);
    if d.target == "login" {
      assert !authenticated;
      LoginResolves();
      LoginAdmitsGuests();
    } else {
      assert d == RedirectTo("admin-dashboard") && authenticated;
      DashboardResolves();
      DashboardAdmitsMembers();
    }
  }
}

=== FILE: sequences.dfy ===
/** Sequence operations shared by the stores and the price estimator: `Array.prototype.find`,
    `Array.prototype.filter`, and the two `splice` shapes the stores use to remove,
    insert and move rows. */
module Sequences {
  import opened Wrappers

  /** `s.find(p)`: the first element satisfying `p`, if any. */
  function Find<T>(s: seq<T>, p: T -> bool): (r: Option<T>)
    ensures r.None? <==> forall i :: 0 <= i < |s| ==> !p(s[i])
    ensures r.Some? ==> r.value in s && p(r.value)
  {
    if |s| == 0 then None
    else if p(s[0]) then Some(s[0])
    else Find(s[1..], p)
  }

  /** `find` returns the first match: every element before it fails `p`. */
  lemma {:induction false} FindIsFirst<T>(s: seq<T>, p: T -> bool)
    requires Find(s, p).Some?
    ensures exists i :: 0 <= i < |s| && s[i] == Find(s, p).value && forall j :: 0 <= j < i ==> !p(s[j])
  {
    if !p(s[0]) {
      FindIsFirst(s[1..], p);
      var i :| 0 <= i < |s[1..]| && s[1..][i] == Find(s[1..], p).value && forall j :: 0 <= j < i ==> !p(s[1..][j]);
      assert s[i + 1] == Find(s, p).value;
      forall j | 0 <= j < i + 1 ensures !p(s[j]) {
        if j > 0 { assert s[j] == s[1..][j - 1]; }
      }
    } else {
      assert s[0] == Find(s, p).value;
    }
  }

  /** `s.filter(p)`: the elements satisfying `p`, in their original order. */
  function Filter<T>(s: seq<T>, p: T -> bool): (r: seq<T>)
    ensures |r| <= |s|
    ensures forall i :: 0 <= i < |r| ==> r[i] in s && p(r[i])
    ensures forall i :: 0 <= i < |s| && p(s[i]) ==> s[i] in r
  {
    if |s| == 0 then []
    else (if p(s[0]) then [s[0]] else []) + Filter(s[1..], p)
  }

  /** Filtering keeps multiplicities: nothing occurs more often in the result than in the
      input, and a matching element occurs exactly as often. */
  lemma {:induction false} FilterCounts<T>(s: seq<T>, p: T -> bool)
    ensures multiset(Filter(s, p)) <= multiset(s)
    ensures forall x :: p(x) ==> multiset(Filter(s, p))[x] == multiset(s)[x]
    decreases |s|
  {
    if |s| > 0 {
      FilterCounts(s[1..], p);
      assert s == [s[0]] + s[1..];
      assert multiset(s) == multiset{s[0]} + multiset(s[1..]);
      var head := if p(s[0]) then [s[0]] else [];
      assert Filter(s, p) == head + Filter(s[1..], p);
      assert multiset(Filter(s, p)) == multiset(head) + multiset(Filter(s[1..], p));
    }
  }

  /** Filtering keeps the order: the kept elements of a concatenation are those of its first
      part followed by those of its second. */
  lemma {:induction false} FilterAppend<T>(a: seq<T>, b: seq<T>, p: T -> bool)
    ensures Filter(a + b, p) == Filter(a, p) + Filter(b, p)
    decreases |a|
  {
    if |a| == 0 {
      assert a + b == b;
    } else {
      assert (a + b)[0] == a[0] && (a + b)[1..] == a[1..] + b;
      FilterAppend(a[1..], b, p);
    }
  }

  /** The position `splice(start, …)` works at: a negative start counts back from the end,
      and the result is clamped into `[0, len]`. */
  function SpliceStart(start: int, len: nat): (k: nat)
    ensures k <= len
  {
    if start < 0 then (if len + start < 0 then 0 else len + start)
    else if start > len then len
    else start
  }

  /** `s.splice(start, 1)`, keeping the array that remains. */
  function RemoveAt<T>(s: seq<T>, start: int): (r: seq<T>)
    ensures 0 <= start < |s| ==> |r| == |s| - 1 && r[..start] == s[..start] && r[start..] == s[start + 1..]
    ensures 0 <= start < |s| ==> multiset(r) + multiset{s[start]} == multiset(s)
    ensures start >= |s| ==> r == s
    ensures -|s| <= start < 0 ==> r == s[..|s| + start] + s[|s| + start + 1..]
  {
    var k := SpliceStart(start, |s|);
    if k < |s| then
      assert s == s[..k] + [s[k]] + s[k + 1..];
      s[..k] + s[k + 1..]
    else s
  }

  /** `s.splice(start, 0, x)`: `x` inserted before position `start`, clamped as `splice` does. */
  function InsertAt<T>(s: seq<T>, start: int, x: T): (r: seq<T>)
    ensures |r| == |s| + 1
    ensures multiset(r) == multiset(s) + multiset{x}
    ensures 0 <= start <= |s| ==> r[start] == x && r[..start] == s[..start] && r[start + 1..] == s[start..]
    ensures start > |s| ==> r == s + [x]
  {
    var k := SpliceStart(start, |s|);
    assert s == s[..k] + s[k..];
    s[..k] + [x] + s[k..]
  }

  /** The "move one row" reordering both sortable lists use:
      `const [moved] = s.splice(from, 1); s.splice(to, 0, moved)`.
      Drag-and-drop always reports a `from` inside the list. */
  function Move<T>(s: seq<T>, from: int, to: int): (r: seq<T>)
    requires 0 <= from < |s|
    ensures |r| == |s|
    ensures multiset(r) == multiset(s)
    ensures 0 <= to < |s| ==> r[to] == s[from]
    ensures 0 <= to < |s| ==> RemoveAt(r, to) == RemoveAt(s, from)
  {
    var rest := RemoveAt(s, from);
    var r := InsertAt(rest, to, s[from]);
    assert 0 <= to < |s| ==> RemoveAt(r, to) == rest by {
      if 0 <= to < |s| {
        assert r == rest[..to] + [s[from]] + rest[to..];
      }
    }
    r
  }

  /** `s.map(f)`. */
  function Map<A, B>(s: seq<A>, f: A -> B): (r: seq<B>)
    ensures |r| == |s|
    ensures forall i :: 0 <= i < |s| ==> r[i] == f(s[i])
  {
    seq(|s|, i requires 0 <= i < |s| => f(s[i]))
  }

  /** Mapping commutes with removal. */
  lemma MapRemoveAt<A, B>(s: seq<A>, f: A -> B, start: int)
    ensures Map(RemoveAt(s, start), f) == RemoveAt(Map(s, f), start)
  {
    var k := SpliceStart(start, |s|);
    if k < |s| {
      var m := Map(s, f);
      assert Map(s[..k] + s[k + 1..], f) == m[..k] + m[k + 1..];
    }
  }

  /** Mapping commutes with insertion. */
  lemma MapInsertAt<A, B>(s: seq<A>, f: A -> B, start: int, x: A)
    ensures Map(InsertAt(s, start, x), f) == InsertAt(Map(s, f), start, f(x))
  {
    var k := SpliceStart(start, |s|);
    var m := Map(s, f);
    assert Map(s[..k] + [x] + s[k..], f) == m[..k] + [f(x)] + m[k..];
  }

  /** Mapping after a move is moving after a map: a field projection of a reordered list
      is the reordered projection. */
  lemma MapMove<A, B>(s: seq<A>, f: A -> B, from: int, to: int)
    requires 0 <= from < |s|
    ensures Map(Move(s, from, to), f) == Move(Map(s, f), from, to)
  {
    MapRemoveAt(s, f, from);
    MapInsertAt(RemoveAt(s, from), f, to, s[from]);
  }

  /** Putting an element back where it was removed from restores the sequence. */
  lemma InsertRemoved<T>(s: seq<T>, i: int)
    requires 0 <= i < |s|
    ensures InsertAt(RemoveAt(s, i), i, s[i]) == s
  {
    var rest := RemoveAt(s, i);
    assert rest == s[..i] + s[i + 1..];
    assert InsertAt(rest, i, s[i]) == rest[..i] + [s[i]] + rest[i..];
    assert rest[..i] == s[..i];
    assert rest[i..] == s[i + 1..];
    assert s == s[..i] + [s[i]] + s[i + 1..];
  }

  /** Moving a row onto its own position changes nothing, so the source's early return
      when the indices are equal agrees with the general path. */
  lemma MoveToSelf<T>(s: seq<T>, i: int)
    requires 0 <= i < |s|
    ensures Move(s, i, i) == s
  {
    InsertRemoved(s, i);
  }

  /** Moving a row back from where it landed undoes the move. */
  lemma MoveRoundTrip<T>(s: seq<T>, from: int, to: int)
    requires 0 <= from < |s| && 0 <= to < |s|
    ensures Move(Move(s, from, to), to, from) == s
  {
    var t := Move(s, from, to);
    assert RemoveAt(t, to) == RemoveAt(s, from);
    assert t[to] == s[from];
    InsertRemoved(s, from);
  }

  /** On a sequence without repeated elements, a move between two distinct positions
      always changes the sequence. */
  lemma MoveChanges<T>(s: seq<T>, from: int, to: int)
    requires 0 <= from < |s| && 0 <= to < |s| && from != to
    requires forall i, j :: 0 <= i < j < |s| ==> s[i] != s[j]
    ensures Move(s, from, to) != s
  {
    var t := Move(s, from, to);
    assert t[to] == s[from];
    assert s[to] != s[from];
  }
}

=== FILE: text.dfy ===
/** The string operations add-on name validation uses: `String.prototype.trim` and
    lower-casing. */
module Text {

  /** The characters `trim` strips: ECMAScript white space and line terminators. */
  predicate IsTrimmable(c: char) {
    || c == ' ' || c == '\t' || c == '\n' || c == '\r' || c == '\U{000B}' || c == '\U{000C}'
    || c == '\U{00A0}' || c == '\U{1680}' || ('\U{2000}' <= c <= '\U{200A}')
    || c == '\U{2028}' || c == '\U{2029}' || c == '\U{202F}' || c == '\U{205F}'
    || c == '\U{3000}' || c == '\U{FEFF}'
  }

  predicate AllTrimmable(s: string) {
    forall i :: 0 <= i < |s| ==> IsTrimmable(s[i])
  }

  /** `s` with its leading white space removed. */
  function TrimStart(s: string): (r: string)
    ensures |r| <= |s|
  {
    if |s| > 0 && IsTrimmable(s[0]) then TrimStart(s[1..]) else s
  }

  /** `s` with its trailing white space removed. */
  function TrimEnd(s: string): (r: string)
    ensures |r| <= |s|
  {
    if |s| > 0 && IsTrimmable(s[|s| - 1]) then TrimEnd(s[..|s| - 1]) else s
  }

  /** `s.trim()`. */
  function Trim(s: string): (r: string)
    ensures |r| <= |s|
  {
    TrimEnd(TrimStart(s))
  }

  /** `TrimStart` drops a white-space prefix and keeps a suffix that does not start with
      white space. */
  lemma {:induction false} TrimStartSpec(s: string)
    ensures TrimStart(s) == s[|s| - |TrimStart(s)|..]
    ensures AllTrimmable(s[..|s| - |TrimStart(s)|])
    ensures TrimStart(s) == [] || !IsTrimmable(TrimStart(s)[0])
    decreases |s|
  {
    if |s| > 0 && IsTrimmable(s[0]) {
      var r := TrimStart(s[1..]);
      TrimStartSpec(s[1..]);
      assert s[1..][..|s[1..]| - |r|] == s[1..|s| - |r|];
      assert s[1..][|s[1..]| - |r|..] == s[|s| - |r|..];
      var dropped := s[..|s| - |r|];
      forall k | 0 <= k < |dropped| ensures IsTrimmable(dropped[k]) {
        if k > 0 { assert dropped[k] == s[1..|s| - |r|][k - 1]; }
      }
    }
  }

  /** `TrimEnd` drops a white-space suffix and keeps a prefix that does not end with
      white space. */
  lemma {:induction false} TrimEndSpec(s: string)
    ensures TrimEnd(s) == s[..|TrimEnd(s)|]
    ensures AllTrimmable(s[|TrimEnd(s)|..])
    ensures TrimEnd(s) == [] || !IsTrimmable(TrimEnd(s)[|TrimEnd(s)| - 1])
    decreases |s|
  {
    if |s| > 0 && IsTrimmable(s[|s| - 1]) {
      var r := TrimEnd(s[..|s| - 1]);
      TrimEndSpec(s[..|s| - 1]);
      assert s[..|s| - 1][|r|..] == s[|r|..|s| - 1];
      assert s[..|s| - 1][..|r|] == s[..|r|];
      var dropped := s[|r|..];
      forall k | 0 <= k < |dropped| ensures IsTrimmable(dropped[k]) {
        if k < |s| - 1 - |r| { assert dropped[k] == s[|r|..|s| - 1][k]; }
      }
    }
  }

  /** `trim` keeps exactly the slice of `s` between its leading and its trailing white space:
      what it drops is white space, and what it keeps neither starts nor ends with any. */
  lemma TrimIsInnerSlice(s: string)
    ensures exists i, j :: 0 <= i <= j <= |s| && Trim(s) == s[i..j] && AllTrimmable(s[..i]) && AllTrimmable(s[j..])
    ensures Trim(s) == [] || (!IsTrimmable(Trim(s)[0]) && !IsTrimmable(Trim(s)[|Trim(s)| - 1]))
  {
    var front := TrimStart(s);
    TrimStartSpec(s);
    var r := TrimEnd(front);
    TrimEndSpec(front);
    assert Trim(s) == r;
    var i := |s| - |front|;
    var j := i + |r|;
    assert front == s[i..];
    assert r == s[i..][..|r|] == s[i..j];
    assert s[j..] == front[|r|..];
    assert AllTrimmable(s[..i]) && AllTrimmable(s[j..]);
    if r != [] {
      assert r[0] == front[0];
    }
  }

  /** A string trims to nothing exactly when it is all white space. */
  lemma TrimEmptyIffBlank(s: string)
    ensures Trim(s) == [] <==> AllTrimmable(s)
  {
    TrimIsInnerSlice(s);
    if Trim(s) == [] {
      var i, j :| 0 <= i <= j <= |s| && Trim(s) == s[i..j] && AllTrimmable(s[..i]) && AllTrimmable(s[j..]);
      assert i == j;
      forall k | 0 <= k < |s| ensures IsTrimmable(s[k]) {
        if k < i { assert s[k] == s[..i][k]; } else { assert s[k] == s[j..][k - j]; }
      }
    }
  }

  /** Lower-casing of one character (the ASCII letters; other characters are kept). */
  function LowerChar(c: char): (r: char)
    ensures 'A' <= c <= 'Z' ==> 'a' <= r <= 'z' && r as int == c as int + 32
    ensures !('A' <= c <= 'Z') ==> r == c
  {
    if 'A' <= c <= 'Z' then (c as int - 'A' as int + 'a' as int) as char else c
  }

  /** `s.toLowerCase()` over the ASCII letters. */
  function ToLower(s: string): (r: string)
    ensures |r| == |s|
    ensures forall i :: 0 <= i < |s| ==> r[i] == LowerChar(s[i])
  {
    seq(|s|, i requires 0 <= i < |s| => LowerChar(s[i]))
  }

  /** Lower-casing an already lower-cased string changes nothing. */
  lemma ToLowerIdempotent(s: string)
    ensures ToLower(ToLower(s)) == ToLower(s)
  {
  }
}

=== FILE: ticket_tier_store.dfy ===
/** The ticket-tier editor's store: the list of tiers of one service, edited locally and
    saved as a whole, and the cache guard that lets the dropdowns reuse a loaded list. */
module TicketTierStore {
  import opened Wrappers
  import opened Records
  import opened Sequences

  /** A tier as the backend returns it. */
  datatype ServerTier = ServerTier(id: Id, name: string, basePrice: string, minQuantity: int, maxQuantity: int)

  /** An entry of the store's `tiers` list. The editor fills the list with full rows (a row
      created locally has a temporary id and no backend id); the dropdown fetch replaces it
      with id/label choices. */
  datatype TierEntry =
    | Row(tempId: Option<string>, id: Option<Id>, name: string, basePrice: string, minQuantity: int, maxQuantity: int)
    | Choice(choiceId: Id, text: string)

  /** An entry as it is sent on save: the same object without its `temp_id` key. */
  datatype TierPayload =
    | RowPayload(id: Option<Id>, name: string, basePrice: string, minQuantity: int, maxQuantity: int)
    | ChoicePayload(choiceId: Id, text: string)

  /** The store's state; `currentServiceId` is `null` until a service is loaded. */
  datatype State = State(tiers: seq<TierEntry>, currentServiceId: Option<string>, serviceName: string)

  /** The outcome of a backend request: it failed, or it delivered `data`. */
  datatype Fetched<T> = Failed | Received(data: T)

  /** The store's initial state, and the state `reset` returns to. */
  const Empty := State([], None, "")

  // ---------------------------------------------------------------- local edits

  /** The blank row `addTier` appends; `tempId` stands for `new_<timestamp>`. */
  function BlankTier(tempId: string): (t: TierEntry)
    ensures t.Row? && t.tempId == Some(tempId) && t.id.None?
    ensures t.name == "" && t.basePrice == "0.00" && t.minQuantity == 1 && t.maxQuantity == 10
  {
    Row(Some(tempId), None, "", "0.00", 1, 10)
  }

  /** `addTier`: one blank row at the end, everything else as it was. */
  function AddTier(st: State, tempId: string): (r: State)
    ensures |r.tiers| == |st.tiers| + 1
    ensures r.tiers[..|st.tiers|] == st.tiers && r.tiers[|st.tiers|] == BlankTier(tempId)
    ensures r.currentServiceId == st.currentServiceId && r.serviceName == st.serviceName
  {
    st.(tiers := st.tiers + [BlankTier(tempId)])
  }

  /** `removeTier(index)`, i.e. `splice(index, 1)`: an index in range drops that row and
      keeps the others in order, an index past the end changes nothing. */
  function RemoveTier(st: State, index: int): (r: State)
    ensures 0 <= index < |st.tiers| ==>
      |r.tiers| == |st.tiers| - 1 && r.tiers[..index] == st.tiers[..index] && r.tiers[index..] == st.tiers[index + 1..]
    ensures index >= |st.tiers| ==> r == st
    ensures r.currentServiceId == st.currentServiceId && r.serviceName == st.serviceName
  {
    st.(tiers := RemoveAt(st.tiers, index))
  }

  /** Removing the row just added gives back the state before the addition. */
  lemma RemoveAddedTier(st: State, tempId: string)
    ensures RemoveTier(AddTier(st, tempId), |st.tiers|) == st
  {
    var added := AddTier(st, tempId);
    assert RemoveAt(added.tiers, |st.tiers|) == added.tiers[..|st.tiers|];
  }

  /** `reorderTier({oldIndex, newIndex})`: equal indices return early; otherwise the row that
      `splice(oldIndex, 1)` takes out (a negative index counts from the end) is put back in at
      `newIndex`. The result holds the same rows, the moved row lands at `newIndex`, and the
      other rows keep their relative order. */
  function ReorderTier(st: State, oldIndex: int, newIndex: int): (r: State)
    requires oldIndex == newIndex || SpliceStart(oldIndex, |st.tiers|) < |st.tiers|
    ensures oldIndex == newIndex ==> r == st
    ensures |r.tiers| == |st.tiers| && multiset(r.tiers) == multiset(st.tiers)
    ensures oldIndex != newIndex && 0 <= newIndex < |st.tiers| ==>
      var from := SpliceStart(oldIndex, |st.tiers|);
      r.tiers[newIndex] == st.tiers[from] && RemoveAt(r.tiers, newIndex) == RemoveAt(st.tiers, from)
    ensures r.currentServiceId == st.currentServiceId && r.serviceName == st.serviceName
  {
    if oldIndex == newIndex then st else st.(tiers := Move(st.tiers, SpliceStart(oldIndex, |st.tiers|), newIndex))
  }

  /** The early return for equal indices is only a shortcut: moving a row onto its own
      position would leave the list unchanged anyway. */
  lemma ReorderGuardIsShortcut(st: State, i: int)
    requires 0 <= i < |st.tiers|
    ensures ReorderTier(st, i, i).tiers == Move(st.tiers, i, i)
  {
    MoveToSelf(st.tiers, i);
  }

  /** Dragging a row back to where it came from undoes the first drag. */
  lemma ReorderUndo(st: State, oldIndex: int, newIndex: int)
    requires 0 <= oldIndex < |st.tiers| && 0 <= newIndex < |st.tiers|
    ensures ReorderTier(ReorderTier(st, oldIndex, newIndex), newIndex, oldIndex) == st
  {
    if oldIndex != newIndex {
      MoveRoundTrip(st.tiers, oldIndex, newIndex);
    }
  }

  // ---------------------------------------------------------------- saving

  /** The `temp_id` an entry carries, if any. */
  function TempIdOf(e: TierEntry): Option<string> {
    if e.Row? then e.tempId else None
  }

  /** `({ temp_id, ...rest }) => rest`. */
  function StripTempId(e: TierEntry): (p: TierPayload)
    ensures e.Row? <==> p.RowPayload?
  {
    match e
    case Row(_, id, name, price, lo, hi) => RowPayload(id, name, price, lo, hi)
    case Choice(id, text) => ChoicePayload(id, text)
  }

  /** Puts a `temp_id` back onto a payload entry. */
  function WithTempId(p: TierPayload, tempId: Option<string>): TierEntry {
    match p
    case RowPayload(id, name, price, lo, hi) => Row(tempId, id, name, price, lo, hi)
    case ChoicePayload(id, text) => Choice(id, text)
  }

  /** Stripping loses the `temp_id` and nothing else. */
  lemma StripTempIdRoundTrip(e: TierEntry, p: TierPayload)
    ensures WithTempId(StripTempId(e), TempIdOf(e)) == e
    ensures StripTempId(WithTempId(p, None)) == p
  {
  }

  /** The `tiers` array of the `saveTiers` body: the entries in the order they are listed,
      each without its `temp_id`. */
  function SavePayload(tiers: seq<TierEntry>): (payload: seq<TierPayload>)
    ensures |payload| == |tiers|
    ensures forall i :: 0 <= i < |tiers| ==> WithTempId(payload[i], TempIdOf(tiers[i])) == tiers[i]
  {
    Map(tiers, StripTempId)
  }

  /** The order sent on save is the order on screen: saving after a drag sends the dragged
      payload. */
  lemma SaveAfterReorder(st: State, oldIndex: int, newIndex: int)
    requires 0 <= oldIndex < |st.tiers|
    ensures SavePayload(ReorderTier(st, oldIndex, newIndex).tiers) ==
            (if oldIndex == newIndex then SavePayload(st.tiers) else Move(SavePayload(st.tiers), oldIndex, newIndex))
  {
    if oldIndex != newIndex {
      MapMove(st.tiers, StripTempId, oldIndex, newIndex);
    }
  }

  // ---------------------------------------------------------------- loading

  /** The full editor row for a backend tier. */
  function EditorRow(t: ServerTier): (e: TierEntry)
    ensures e.Row? && e.tempId.None? && e.id == Some(t.id)
    ensures e.name == t.name && e.basePrice == t.basePrice && e.minQuantity == t.minQuantity && e.maxQuantity == t.maxQuantity
  {
    Row(None, Some(t.id), t.name, t.basePrice, t.minQuantity, t.maxQuantity)
  }

  /** The dropdown choice for a backend tier. */
  function DropdownChoice(t: ServerTier): (e: TierEntry)
    ensures e.Choice? && e.choiceId == t.id && e.text == t.name
  {
    Choice(t.id, t.name)
  }

  /** The tier list a response's `data` yields; anything that is not a list of tiers
      (`None`) yields the empty list. */
  function Loaded(data: Option<seq<ServerTier>>, f: ServerTier -> TierEntry): (tiers: seq<TierEntry>)
    ensures data.None? ==> tiers == []
    ensures data.Some? ==> |tiers| == |data.value| && forall i :: 0 <= i < |tiers| ==> tiers[i] == f(data.value[i])
  {
    if data.Some? then Map(data.value, f) else []
  }

  /** `initialize(serviceId)`: records the service id at once; when both requests succeed,
      takes the service name and the tiers as editor rows; when either fails, keeps the
      previous name and tiers. */
  function Initialize(st: State, serviceId: string, response: Fetched<(string, Option<seq<ServerTier>>)>): (r: State)
    ensures r.currentServiceId == Some(serviceId)
    ensures response.Failed? ==> r.tiers == st.tiers && r.serviceName == st.serviceName
    ensures response.Received? ==>
      r.serviceName == response.data.0 && r.tiers == Loaded(response.data.1, EditorRow)
  {
    match response
    case Failed => st.(currentServiceId := Some(serviceId))
    case Received((name, data)) => State(Loaded(data, EditorRow), Some(serviceId), name)
  }

  /** The cache guard of `fetchTicketTiers`: a non-empty list already loaded for the same
      service is reused. */
  predicate UsesCache(st: State, serviceId: string) {
    |st.tiers| > 0 && st.currentServiceId == Some(serviceId)
  }

  /** What `fetchTicketTiers` leaves behind, and whether it sent a request. */
  datatype FetchOutcome = FetchOutcome(state: State, requested: bool)

  /** `fetchTicketTiers(serviceId)`. `response` is what the request would deliver. */
  function FetchTicketTiers(st: State, serviceId: string, response: Fetched<Option<seq<ServerTier>>>): (r: FetchOutcome)
    ensures r.requested <==> !UsesCache(st, serviceId)
    ensures !r.requested ==> r.state == st
    ensures r.requested ==> r.state.currentServiceId == Some(serviceId) && r.state.serviceName == st.serviceName
    ensures r.requested && response.Failed? ==> r.state.tiers == st.tiers
    ensures r.requested && response.Received? ==> r.state.tiers == Loaded(response.data, DropdownChoice)
  {
    if UsesCache(st, serviceId) then FetchOutcome(st, false)
    else
      var pending := st.(currentServiceId := Some(serviceId));
      match response
      case Failed => FetchOutcome(pending, true)
      case Received(data) => FetchOutcome(pending.(tiers := Loaded(data, DropdownChoice)), true)
  }

  /** A second fetch for the same service after one that delivered tiers sends nothing and
      changes nothing. */
  lemma FetchTwiceUsesCache(st: State, serviceId: string, data: seq<ServerTier>, again: Fetched<Option<seq<ServerTier>>>)
    requires |data| > 0
    ensures var first := FetchTicketTiers(st, serviceId, Received(Some(data))).state;
      FetchTicketTiers(first, serviceId, again) == FetchOutcome(first, false)
  {
  }

  /** After the editor loaded a non-empty tier list, the dropdown fetch for that service
      reuses the editor rows instead of loading choices. */
  lemma FetchAfterInitializeUsesCache(st: State, serviceId: string, name: string, data: seq<ServerTier>,
                                      again: Fetched<Option<seq<ServerTier>>>)
    requires |data| > 0
    ensures var loaded := Initialize(st, serviceId, Received((name, Some(data))));
      !FetchTicketTiers(loaded, serviceId, again).requested && forall i :: 0 <= i < |loaded.tiers| ==> loaded.tiers[i].Row?
  {
  }

  /** A fetch that fails still records the new service id, so a later fetch for that service
      is served from the tiers of the service loaded before. */
  lemma FailedFetchKeepsOtherServiceTiers(st: State, other: string, serviceId: string,
                                          again: Fetched<Option<seq<ServerTier>>>)
    requires |st.tiers| > 0 && st.currentServiceId == Some(other) && other != serviceId
    ensures var failed := FetchTicketTiers(st, serviceId, Failed);
      failed.requested && failed.state.tiers == st.tiers &&
      FetchTicketTiers(failed.state, serviceId, again) == FetchOutcome(failed.state, false)
  {
  }

  /** `reset()`: no tiers, no current service, no name. */
  function Reset(st: State): (r: State)
    ensures r.tiers == [] && r.currentServiceId.None? && r.serviceName == ""
  {
    Empty
  }

  /** After a reset the next fetch always goes to the backend, whatever was cached. */
  lemma ResetForcesFetch(st: State, serviceId: string, response: Fetched<Option<seq<ServerTier>>>)
    ensures FetchTicketTiers(Reset(st), serviceId, response).requested
    ensures response.Received? ==> FetchTicketTiers(Reset(st), serviceId, response).state.tiers == Loaded(response.data, DropdownChoice)
  {
  }
}

=== FILE: wrappers.dfy ===
/** Optional values, used wherever the source works with a value that may be absent
    (`undefined`, `null`, a failed `find`). */
module Wrappers {

  datatype Option<+T> = None | Some(value: T) {

    /** The wrapped value, or `default` when there is none. */
    function GetOr(default: T): T {
      match this
      case Some(v) => v
      case None => default
    }
  }

  /** A one-element sequence for `Some`, the empty sequence for `None`. */
  function ToSeq<T>(o: Option<T>): (s: seq<T>)
    ensures |s| <= 1
    ensures o.None? <==> s == []
    ensures o.Some? ==> s == [o.value]
  {
    match o
    case Some(v) => [v]
    case None => []
  }
}
